=== FILE: README.md ===
# Credit ledger and resume parser: a Dafny model

This project models two pieces of the recruiting platform and proves properties about them.

The first is the billing service's **subscription credit ledger**. It covers:
- the plan tiers;
- a subscription's lazy, rolling-window daily reset;
- the balance read;
- daily-first credit consumption with the free-tier candidate bypass;
- the one-time referral reward;
- the endpoints that change ledger state: consume credits, cancel, pay an invoice, create a subscription and create a referral.

Every endpoint is a pure function from the persisted ledger before the request to the ledger after it, together with the answer it gives. The clock, freshly generated keys and the payment providers' results are parameters.

The second is the candidate-profile service's **resume parser**, in its deterministic part. It covers:
- splitting the text into header-delimited sections;
- reading the lines of named sections;
- the bullet-line test;
- the skills, experience, education and certification list builders;
- the orchestration that builds the parse result.

Each `while` loop of the parser is a recursive function over the line index and the loop's variables. Each loop invariant is a predicate, with a step lemma per branch and an `{:induction false}` loop lemma.

Files:
- `wrappers.dfy`: `Option` and `Result`.
- `text.dfy`: Python string helpers (`strip`, `lower`, `split`, `in`, `" ".join`, `sorted`).
- `billing_models.dfy`, `billing_views.dfy`, `billing_scenarios.dfy`: the ledger, its endpoints, and the service's own test scenarios replayed.
- `resume_sections.dfy`, `resume_lists.dfy`, `resume_entries.dfy`, `resume_parse.dfy`, `resume_scenarios.dfy`: the parser.

## Model

| member | source | states |
|---|---|---|
| BillingModels.FindPlan | billing_service/billing/models.py:6-18 | the plan found satisfies the lookup condition and is in the catalogue; nothing is found exactly when no catalogue entry satisfies it |
| BillingModels.WholeDays | billing_service/billing/models.py:51 | `timedelta.days` rounds elapsed seconds down to whole days, also for negative spans |
| BillingModels.DayElapsedIff | billing_service/billing/models.py:51 | a reset is due exactly when 86400 seconds or more have passed since the last reset; a clock behind the last reset never triggers one |
| BillingModels.ResetDaily | billing_service/billing/models.py:50-57 | with no whole day elapsed the record is unchanged; otherwise the daily balance becomes the tier's allotment and the reset instant becomes now; referral credits and every other field are kept |
| BillingModels.ResetAllotment | billing_service/billing/models.py:52-55 | the free tier is refilled to 5 whatever its catalogue entry says; other tiers get their catalogue credits |
| BillingModels.ResetIdempotent | billing_service/billing/models.py:50-57 | a second reset at the same instant changes nothing |
| BillingModels.ResetOncePerWindow | billing_service/billing/models.py:50-57 | after a reset at t, any reset before t + 86400 is a no-op: the window is rolling and anchored to the last reset |
| BillingModels.AvailableCredits | billing_service/billing/models.py:59-61 | the balance is daily plus referral credits after any due reset, and the record saved is the reset record |
| BillingModels.Deduct | billing_service/billing/models.py:70-75 | the split after a covered charge follows the daily-first policy: the total drops by exactly the amount, referral credits never grow, and they are touched only once the daily balance is zero |
| BillingModels.DrawsDailyFirstUnique | billing_service/billing/models.py:70-75 | the daily-first policy determines the split: any split that follows it is the one the code computes |
| BillingModels.UseCredits | billing_service/billing/models.py:63-77 | a free-tier candidate action succeeds at no cost; otherwise the charge succeeds exactly when the post-reset total covers the amount; a refused charge keeps only the reset; a successful one draws daily-first and changes nothing else |
| BillingModels.UseCreditsSpendsExactly | billing_service/billing/models.py:67-77 | a successful charge of a positive amount lowers the total by exactly that amount, and neither balance grows |
| BillingModels.CheckReward | billing_service/billing/models.py:119-124 | the referral becomes rewarded exactly when it already was or its counter reached 5; the referrer gains one referral credit exactly when the flag flips; nothing else changes |
| BillingModels.RewardGrantedOnce | billing_service/billing/models.py:119-124 | once granted, the reward is never granted again, whatever the counter later becomes |
| BillingViews.CreditsParam | billing_service/billing/views.py:212-215 | an absent `credits` means 1; an integer is accepted exactly when positive, and then the amount is that integer; `true` counts as 1 and `false` is refused; strings, null and other values are refused |
| BillingViews.IsCandidateParam | billing_service/billing/views.py:213 | `is_candidate` is read by Python truthiness: absent or null is false, a boolean is itself, a number is true when non-zero, a string when non-empty |
| BillingViews.AdvanceReferrals | billing_service/billing/views.py:223-228 | the referral loop keeps the set of subscriptions and gives back one referral for each; what it does to them is stated by AdvanceReferralsCounts and AdvanceReferralsCredits |
| BillingViews.AdvanceReferralsCounts | billing_service/billing/views.py:223-228 | the referrals of the charged subscription count the amount more and are rewarded exactly when they were or now reach 5; every other referral is unchanged |
| BillingViews.AdvanceReferralsCredits | billing_service/billing/views.py:223-228 | only referral credits change, and each referrer gains one credit per referral rewarded during the loop |
| BillingViews.Consume | billing_service/billing/views.py:205-238 | an unknown or foreign subscription gives not-found, an inactive one invalid-status, a bad `credits` invalid-credits, all with no change; a success appends exactly one usage entry and stores the charged record, whose daily balance and reset time are those `use_credits` computed; on a candidate success that record is the only change to subscriptions and referrals are untouched; on any success every other subscription differs at most in its referral credits; an insufficient-credits answer keeps only the daily reset; plans, invoices and the set of subscriptions never change; referential integrity is kept |
| BillingViews.Commit | billing_service/billing/views.py:217-228 | after a covered charge: exactly one usage entry is appended; a candidate action changes neither subscriptions nor referrals; otherwise every subscription keeps everything but its referral credits, which never decrease; plans, invoices and the set of subscriptions are unchanged, and referential integrity is kept |
| BillingViews.ConsumeSucceedsIff | billing_service/billing/views.py:205-238 | the endpoint succeeds exactly when the subscription is the tenant's and active, the amount is valid, and either the free-tier candidate rule applies or the post-reset balance covers it; the reported balance is the charged record's |
| BillingViews.ConsumeInsufficientLeavesLogs | billing_service/billing/views.py:217-238 | a refused charge logs no usage and advances no referral; the daily balance is the reset one and the referral credits are untouched |
| BillingViews.ConsumeCandidateKeepsReferrals | billing_service/billing/views.py:223 | candidate actions never advance referrals, whatever the plan |
| BillingViews.ConsumeAdvancesReferrals | billing_service/billing/views.py:217-228 | a successful employer-side charge adds the amount to each referral of the charged subscription, rewards exactly those reaching 5, credits each referrer one per newly rewarded referral, and leaves every other referral as it was |
| BillingViews.ConsumeRejectsInvalidCredits | billing_service/billing/views.py:212-215 | `credits` of 0, `false` or a string is refused before anything changes |
| BillingViews.Cancel | billing_service/billing/views.py:93-102 | success exactly for the tenant's active subscription, which becomes cancelled and stops auto-renewing; otherwise not-found or invalid-status with no change |
| BillingViews.CancelOnce | billing_service/billing/views.py:96-98 | a second cancellation is refused with invalid-status and changes nothing |
| BillingViews.PayInvoice | billing_service/billing/views.py:131-155 | success exactly for the tenant's unpaid invoice whose subscription pays by a known provider that returns a payment id; an unknown or foreign invoice gives not-found; already-paid is answered exactly for the tenant's paid invoice; every failure changes nothing; a success marks the invoice paid with the provider's id and makes its subscription active, touching nothing else |
| BillingViews.PayInvoiceReactivatesCancelled | billing_service/billing/views.py:138-155 | paying an unpaid invoice of a cancelled subscription makes it active again |
| BillingViews.NewFreeSubscription | billing_service/billing/views.py:43-46 | a free-tier signup starts active, with 5 daily credits, no payment method, no referral credits and a 30-day term |
| BillingViews.CreateSubscription | billing_service/billing/views.py:30-61 | not-found exactly when the plan is missing; existing subscriptions, usages, referrals and plans are untouched; at most the new subscription is added; a success answers the new id; referential integrity is kept |
| BillingViews.CreateSubscriptionAsWritten | billing_service/billing/views.py:30-74 | as written the endpoint never succeeds and stores nothing: not-found exactly when the plan is missing, otherwise "Creation failed" |
| BillingViews.CreateSubscriptionAsWrittenFails | billing_service/billing/views.py:30-74 | for every existing plan the code as written answers "Creation failed" with the ledger unchanged, an answer the intended flow never gives |
| BillingViews.CreateFreeSubscription | billing_service/billing/views.py:43-46 | choosing the free plan always succeeds, creates the free-tier record and issues no invoice |
| BillingViews.Least | billing_service/billing/views.py:251 | the least id of a non-empty set is in it and below every other |
| BillingViews.FirstOfTenant | billing_service/billing/views.py:251 | the tenant's first subscription is the tenant's, with the least id; there is none exactly when the tenant has no subscription |
| BillingViews.CreateReferral | billing_service/billing/views.py:246-274 | success exactly when the referrer is the tenant's and the referred tenant has a subscription or a free-tier plan exists; a tenant that has a subscription has its first one reused, with no subscription added; a referrer outside the tenant gives not-found; failures change nothing; a success answers the key of the new referral, which is appended unrewarded at zero for a subscription of the referred tenant, and adds at most that subscription |
| BillingViews.ReferralCreatesFreeSubscription | billing_service/billing/views.py:251-262 | referring a tenant without a subscription signs it up to the free tier: active, 5 daily credits, no payment method; the new referral points at it |
| BillingScenarios.EmployerSpendsFromDaily | billing_service/billing/tests.py:32-37 | an employer spending 2 of the free tier's 5 daily credits leaves 3 |
| BillingScenarios.CandidateSpendsNothing | billing_service/billing/tests.py:39-44 | a candidate action on the free tier leaves the 5 daily credits |
| BillingScenarios.ConsumeOneStep | billing_service/billing/tests.py:46-61 | each of the first five one-credit employer charges on the referred subscription succeeds, takes a daily credit, logs one entry and counts one interview |
| BillingScenarios.ReferralRewardedAfterFive | billing_service/billing/tests.py:46-66 | after five charges the referral counts 5 and is rewarded, and the referrer holds exactly one referral credit |
| BillingScenarios.SixthConsumeRefused | billing_service/billing/models.py:67-69 | a sixth charge is refused for insufficient credits and rewards nothing more |
| ResumeSections.Put | candidate_profile_service/candidate_profile/parser.py:76 | assigning a key replaces its entry in place, or appends one when the key is new; keys stay distinct |
| ResumeSections.CloseLast | candidate_profile_service/candidate_profile/parser.py:75 | only the newest section gets the end; the rest are unchanged |
| ResumeSections.HeaderKey | candidate_profile_service/candidate_profile/parser.py:69-73 | a line is a header exactly when its stripped, lower-cased text contains a header phrase and has at most five words; its key is the stripped line |
| ResumeSections.Closed | candidate_profile_service/candidate_profile/parser.py:74-75 | a header closes the newest section at its own line unless that section has the same key; keys and starts are kept |
| ResumeSections.StepKeys | candidate_profile_service/candidate_profile/parser.py:72-78 | one header line adds its key to the table and no other |
| ResumeSections.ScanKeys | candidate_profile_service/candidate_profile/parser.py:69-78 | after the scan, the table's keys are exactly the header keys seen |
| ResumeSections.ScanWithin | candidate_profile_service/candidate_profile/parser.py:69-78 | every section starts within the lines seen, and a closed one ends between its start and there |
| ResumeSections.ScanStarts | candidate_profile_service/candidate_profile/parser.py:76 | each section starts right after the last header line with its key |
| ResumeSections.FindSectionBounds | candidate_profile_service/candidate_profile/parser.py:67-84 | the table is non-empty with distinct keys, lies within the document, and its newest section ends at the end of the document |
| ResumeSections.NoHeaderDefault | candidate_profile_service/candidate_profile/parser.py:79-83 | the table is the single "personal details" section over the whole document exactly when no line is a header |
| ResumeSections.SectionKeys | candidate_profile_service/candidate_profile/parser.py:67-81 | with a header line, the section keys are exactly the stripped header lines |
| ResumeSections.SectionStarts | candidate_profile_service/candidate_profile/parser.py:67-81 | with a header line, each section starts right after the last header line carrying its key |
| ResumeSections.DistinctHeadersTiled | candidate_profile_service/candidate_profile/parser.py:67-84 | with pairwise different header lines every section is closed, each ending on the next header's line and the last at the end of the document |
| ResumeSections.SliceCleaned | candidate_profile_service/candidate_profile/parser.py:93 | the stripped non-blank lines of a Python-clamped slice: only stripped lines of the document, none when the slice is empty or out of range |
| ResumeSections.SliceCleanedKeeps | candidate_profile_service/candidate_profile/parser.py:93 | every non-blank line inside the slice is kept, stripped |
| ResumeSections.Lookup | candidate_profile_service/candidate_profile/parser.py:90-97 | the section found is a table entry whose lower-cased key contains the lower-cased name, and no earlier entry in table order matches; none exactly when no key does |
| ResumeSections.GetSectionLines | candidate_profile_service/candidate_profile/parser.py:86-98 | corrected reader: every line returned is a non-blank stripped line of the document |
| ResumeSections.FirstNameContributes | candidate_profile_service/candidate_profile/parser.py:89-96 | a name that matches no section adds nothing; a match whose start line was already covered adds nothing; any other match adds its section's cleaned lines in front of what the remaining names give; either way the match's lines count as covered afterwards |
| ResumeSections.NoDoubleExtraction | candidate_profile_service/candidate_profile/parser.py:93-95 | two requested names, equal or not, that find the same section yield its lines once |
| ResumeSections.AsWrittenAgrees | candidate_profile_service/candidate_profile/parser.py:86-98 | the reader as written fails exactly when a requested name first matches a still-open section, and otherwise returns what the corrected reader returns |
| ResumeSections.DistinctHeadersNeverFail | candidate_profile_service/candidate_profile/parser.py:86-98 | with pairwise different header lines, the reader as written never fails |
| ResumeLists.StartsWithNumberIff | candidate_profile_service/candidate_profile/parser.py:102 | the greedy digit-run test agrees with the regex `^\d+\b`, which may backtrack |
| ResumeLists.BulletLineCases | candidate_profile_service/candidate_profile/parser.py:100-102 | empty and capitalised lines are never bullets; a line starting with a digit is one exactly when no digit prefix ends at a word boundary; every other non-empty line is one |
| ResumeLists.CleanBullet | candidate_profile_service/candidate_profile/parser.py:152 | the cleaned line is stripped and no longer than the line |
| ResumeLists.CleanBulletPlain | candidate_profile_service/candidate_profile/parser.py:152 | a stripped line without a leading removable marker is its own cleaned form |
| ResumeLists.AcceptedFields | candidate_profile_service/candidate_profile/parser.py:156-161 | a field is kept exactly when its stripped form passes the skill filter (at least 2 characters, not a numeral, no excluded word), and only stripped fields are kept |
| ResumeLists.SkillsOfLine | candidate_profile_service/candidate_profile/parser.py:152-171 | every skill taken from one line passes the skill filter |
| ResumeLists.ExtractedSkillsAppend | candidate_profile_service/candidate_profile/parser.py:151-171 | extraction works line by line, so it distributes over a split of the section |
| ResumeLists.SortedSet | candidate_profile_service/candidate_profile/parser.py:172 | the result is strictly sorted and holds exactly the input's elements |
| ResumeLists.ParseSkills | candidate_profile_service/candidate_profile/parser.py:149-172 | the skills are strictly sorted and are exactly the key skills plus the extracted ones; every non-key skill passes the skill filter |
| ResumeLists.ParseSkillsUnique | candidate_profile_service/candidate_profile/parser.py:149-172 | the result is the only strictly sorted list holding exactly those skills |
| ResumeLists.ParseSkillsOrderFree | candidate_profile_service/candidate_profile/parser.py:149-172 | neither the order of the key skills nor the order of the section's parts changes the result |
| ResumeLists.CertificationOf | candidate_profile_service/candidate_profile/parser.py:254-256 | a line yields an entry exactly when it is a bullet line whose cleaned text is longer than 5 characters and has no contact word; the title is the cleaned line |
| ResumeLists.ParseCertifications | candidate_profile_service/candidate_profile/parser.py:251-258 | at most one entry per line; an entry is in the result exactly when some line yields it |
| ResumeLists.CertificationsSound | candidate_profile_service/candidate_profile/parser.py:254-256 | every title is the cleaned text of a qualifying line, longer than 5 characters and free of contact words |
| ResumeLists.ParseCertificationsSingle | candidate_profile_service/candidate_profile/parser.py:253-256 | one line yields its certification exactly when it qualifies |
| ResumeLists.ParseCertificationsAppend | candidate_profile_service/candidate_profile/parser.py:253-256 | lines are judged one at a time and kept in order, so the result distributes over concatenation |
| ResumeLists.ParseCertificationsComplete | candidate_profile_service/candidate_profile/parser.py:253-256 | every qualifying line is kept |
| ResumeEntries.ExperienceStep | candidate_profile_service/candidate_profile/parser.py:180-212 | every pass of the loop moves forward and stays within the section, so the loop terminates |
| ResumeEntries.CloseFrom | candidate_profile_service/candidate_profile/parser.py:184-186 | a titled, dated draft with fragments closes into an entry built from the section's lines |
| ResumeEntries.FlushFrom | candidate_profile_service/candidate_profile/parser.py:214-216 | the final flush under the loop invariant adds only well-formed entries, at most one per two lines |
| ResumeEntries.DateStepKeeps | candidate_profile_service/candidate_profile/parser.py:182-198 | the date branch keeps the loop invariant |
| ResumeEntries.TitleStepKeeps | candidate_profile_service/candidate_profile/parser.py:200-204 | the title branch keeps the loop invariant |
| ResumeEntries.FragmentStepKeeps | candidate_profile_service/candidate_profile/parser.py:206-212 | the fragment and skip branches keep the loop invariant |
| ResumeEntries.ExperienceLoopFrom | candidate_profile_service/candidate_profile/parser.py:180-218 | from an invariant state the loop yields only well-formed entries, at most one per two lines |
| ResumeEntries.ParseExperience | candidate_profile_service/candidate_profile/parser.py:174-218 | every entry has a non-empty title and an optional company copied verbatim from section lines, the date text of a section line as duration, and a description of 1 to 20 bullet-stripped lines joined by spaces; there are at most half as many entries as lines |
| ResumeEntries.FindYearFrom | candidate_profile_service/candidate_profile/parser.py:234 | the match found is the leftmost standalone four-digit number at or after the position; none when there is no such number |
| ResumeEntries.FindYear | candidate_profile_service/candidate_profile/parser.py:234 | a year is found exactly when the line has a standalone four-digit number; it is four digits, and it is the leftmost such number |
| ResumeEntries.RemoveYearRanges | candidate_profile_service/candidate_profile/parser.py:237 | removing year ranges never lengthens the line, and a line with no year start comes back unchanged |
| ResumeEntries.FirstYearRangeRemoved | candidate_profile_service/candidate_profile/parser.py:237 | the text before the first year start is kept as it is, the year range starting there is dropped, and the substitution resumes where that range ends |
| ResumeEntries.NoYearStartKeeps | candidate_profile_service/candidate_profile/parser.py:237 | with no year start from a position on, the substitution copies the rest of the text |
| ResumeEntries.YearStartShortens | candidate_profile_service/candidate_profile/parser.py:237 | each year match removes at least its four digits |
| ResumeEntries.EducationBlock | candidate_profile_service/candidate_profile/parser.py:233-242 | the detail loop stops at the end of the section or at the first line mentioning a header phrase, and no earlier line mentions one |
| ResumeEntries.EducationBlockFrom | candidate_profile_service/candidate_profile/parser.py:233-242 | detail lines keep the degree and only fill the draft from the section's lines |
| ResumeEntries.EducationLoopFrom | candidate_profile_service/candidate_profile/parser.py:225-249 | the loop yields only well-formed entries |
| ResumeEntries.ParseEducation | candidate_profile_service/candidate_profile/parser.py:220-249 | every entry's degree is a section line mentioning a degree word; it has a truthy start year or institution; a start year is four digits; an institution is non-empty and stripped |
| ResumeParse.Keys | candidate_profile_service/candidate_profile/parser.py:354 | the detected sections are the table's keys, in table order |
| ResumeParse.ParseLines | candidate_profile_service/candidate_profile/parser.py:332-354 | the parse result's skills are strictly sorted, include every key skill and otherwise pass the skill filter; the detected sections are the table's keys |
| ResumeParse.NoHeaderDetected | candidate_profile_service/candidate_profile/parser.py:79-83 | a document without header lines reports only "personal details" |
| ResumeParse.HeadersDetected | candidate_profile_service/candidate_profile/parser.py:67-84 | otherwise the reported sections are exactly the stripped header lines |
| ResumeParse.ParseLinesAsWritten | candidate_profile_service/candidate_profile/parser.py:374-380 | any failure of the parse as written is the catch-all "Internal server error" |
| ResumeParse.ParseAsWrittenAgrees | candidate_profile_service/candidate_profile/parser.py:326-380 | the parse as written fails exactly when one of its four groups first matches a still-open section, and otherwise equals the corrected parse |
| ResumeParse.DistinctHeadersParse | candidate_profile_service/candidate_profile/parser.py:326-380 | with pairwise different header lines the parse as written always succeeds with the corrected result |
| ResumeScenarios.ShortLineNotHeader | candidate_profile_service/candidate_profile/parser.py:25-34 | a line shorter than six characters is never a header, since every header phrase is longer |
| ResumeScenarios.RepeatedSkillsBounds | candidate_profile_service/candidate_profile/parser.py:67-84 | for the document Skills/Go/Education/BSc/Skills/Rust, "Skills" is reopened at line 5 and left open, and "Education" spans lines 3 to 6 |
| ResumeScenarios.RepeatedSkillsCrashes | candidate_profile_service/candidate_profile/parser.py:86-98 | the reader as written fails on that document when asked for "skills" |
| ResumeScenarios.RepeatedSkillsCorrected | candidate_profile_service/candidate_profile/parser.py:86-98 | the corrected reader returns ["Rust"] for it |
| ResumeScenarios.RepeatedSkillsParseFails | candidate_profile_service/candidate_profile/parser.py:335-380 | the parse as written answers "Internal server error" for that document |

## Left out

- Persistence, the HTTP layer, audit logs and logging are not modelled. Each endpoint returns the ledger as it would be persisted.
- The clock is not modelled: each request reads the clock once. The source calls `timezone.now()` several times per request, so a reset and its comparison may see instants microseconds apart.
- Concurrency and row locking are not modelled. Per-row serialisation of the read-reset-deduct sequence is a deployment concern. `F('referral_credits') + 1` is modelled as a plain increment of the referrer's record.
- Primary keys are naturals, not UUIDs. `.first()` on an unordered queryset is taken to be ordering by primary key.
- BillingViews.CreateReferral: referrals carry no key field; the key answered for a new referral is its position in the referral log, standing in for the generated `referral.id`.
- Payment providers (`process_*_payment`) appear only as their result: a payment id, or failure when they raise. Invoice amounts, due dates and `create_invoice` are left out; an invoice records its subscription, status and payment id.
- The Stripe webhook and the read-only views (listing plans, getting a subscription, listing invoices) change no ledger rule and are not part of this model.
- BillingViews.CreateSubscription: models the view's intended transitions; the code as written, which never gets past the save, is CreateSubscriptionAsWritten and is recorded under "## Findings".
- Generic 500 answers for storage failures are not modelled.
- Two behaviours of the code that a reader might not expect are modelled as written:
  - a refused charge still saves the daily reset it performed (models.py:51-57, 64-69);
  - paying an invoice sets a cancelled subscription back to active (views.py:154).
- Parser strings are sequences of characters. `lower()`, `isupper()`, `\d` and `\w` are ASCII-only here; `isspace()`/`strip()` use Python's whitespace set.
- The date regex is a parameter `dateSearch`: the text `re.search(date_pattern, line)` matches, or none.
- PDF text extraction, spaCy and `parse_personal_info`, `calculate_skill_match`, `calculate_relevance_score`, `save_to_db` and the timing metadata are left out; the parse result holds only what the text determines. `candidate_id` and `job_role` are echoed unchanged and left out.
- ResumeEntries.ParseExperience: states the provenance and shape of each entry and a bound on their number, not which entries appear. The per-branch behaviour is in ExperienceStep's body and the step lemmas.
- ResumeEntries.ParseEducation: states the provenance and shape of each entry, not which entries appear. A degree line's detail loop runs on to the next header phrase, past any later degree line, so consecutive degrees inside one section merge into one entry; this is modelled as written.
- ResumeSections.GetSectionLines: its ensures states only that each returned line is a stripped non-blank line of the document. What each requested name adds is stated by FirstNameContributes, and which lines a section's slice holds by SliceCleanedKeeps; NoDoubleExtraction and AsWrittenAgrees add the repeated-match and as-written cases.
- ResumeParse.ParseLines: states the skills list and the detected sections. The experience, education and certification lists are stated by ParseExperience, ParseEducation and ParseCertifications on the lines each group reads.

## Findings

| source | as written | input that shows it | evidently intended | confidence | as-written member | corrected member |
|---|---|---|---|---|---|---|
| candidate_profile_service/candidate_profile/parser.py:86-98 | `seen_indices.update(range(start, end))` with `end` still `None` raises `TypeError`. `find_section_bounds` leaves a section open when its header repeats after another section: the repeated key is re-put in its old table position and the final close reaches the newer section. The catch-all then answers "Internal server error" for the whole resume. | lines `Skills`, `Go`, `Education`, `BSc`, `Skills`, `Rust`, asked for `skills` | an open section extends to the end of the document, as the slice `lines[start:None]` already reads it | not executed | ResumeSections.GetSectionLinesAsWritten (exhibited by ResumeScenarios.RepeatedSkillsCrashes and, at the parse level, ResumeParse.ParseLinesAsWritten with ResumeScenarios.RepeatedSkillsParseFails) | ResumeSections.GetSectionLines (ResumeScenarios.RepeatedSkillsCorrected returns `Rust`; ResumeSections.AsWrittenAgrees and ResumeParse.ParseAsWrittenAgrees relate the two; ResumeParse.ParseLines uses it) |
| billing_service/billing/views.py:30-74 | `SubscriptionSerializer` declares `plan` read-only (serializers.py:10), so `serializer.save()` at views.py:42 inserts a subscription without its non-null foreign key `plan` (models.py:34) and raises; the catch-all at views.py:72-74 answers 500 "Creation failed" and nothing is stored | any request whose `plan_id` names an existing plan, e.g. the TA-Copilot plan | the subscription is created on the plan looked up at views.py:33, as the code after the save (views.py:43-61) expects | not executed | BillingViews.CreateSubscriptionAsWritten (exhibited by BillingViews.CreateSubscriptionAsWrittenFails) | BillingViews.CreateSubscription (BillingViews.CreateFreeSubscription proves the free-tier signup succeeds) |

=== FILE: billing_models.dfy ===
/**
 * The billing service's records and the credit-ledger rules attached to
 * them: the plan catalogue, a subscription's lazy daily reset, balance
 * reads, daily-first consumption, and the one-time referral reward.
 *
 * Every Django model method that mutates and saves `self` becomes a pure
 * function from the record before the call to the record after it. Time
 * is an integer number of seconds; the caller passes the current instant.
 */
module BillingModels {
  import opened Wrappers

  type Seconds = int
  type TenantId = nat
  type PlanId = nat
  type SubId = nat

  const SecondsPerDay: int := 86400

  /** The fixed daily allotment of the free tier, whatever its catalogue entry says. */
  const FreeTierDailyCredits: nat := 5

  /** Number of counted usages on a referred subscription that earns the referrer its reward. */
  const RewardThreshold: nat := 5

  /** Plan tiers, named "TA-Copilot" (the free tier), "humanadv" and "humanpro". */
  datatype Tier = TACopilot | HumanAdv | HumanPro

  /** A catalogue entry; `credits` is the plan's base daily allotment. */
  datatype Plan = Plan(id: PlanId, tier: Tier, credits: nat)

  /** Plan names are unique in the catalogue, and so are primary keys. */
  predicate UniqueCatalog(catalog: seq<Plan>) {
    forall i, j :: 0 <= i < j < |catalog| ==> catalog[i].tier != catalog[j].tier && catalog[i].id != catalog[j].id
  }

  /** The first catalogue entry that `wanted` accepts (a single-row `Plan.objects.get`). */
  function FindPlan(catalog: seq<Plan>, wanted: Plan -> bool): (r: Option<Plan>)
    ensures r.Some? ==> r.value in catalog && wanted(r.value)
    ensures r.None? <==> forall p :: p in catalog ==> !wanted(p)
  {
    if |catalog| == 0 then None
    else if wanted(catalog[0]) then Some(catalog[0])
    else FindPlan(catalog[1..], wanted)
  }

  datatype Status = Active | Pending | Cancelled | Expired

  /**
   * One tenant's subscription. `daily` is reset on a rolling one-day window
   * anchored at `lastReset`; `referral` carries forward and only grows by
   * referral rewards.
   */
  datatype Subscription = Subscription(
    tenant: TenantId,
    plan: Plan,
    paymentMethod: Option<string>,
    paymentId: Option<string>,
    status: Status,
    start: Seconds,
    end: Seconds,
    autoRenew: bool,
    daily: nat,
    referral: nat,
    lastReset: Seconds)

  /** Python's `timedelta.days`: whole days, rounded toward negative infinity. */
  function WholeDays(elapsed: Seconds): (d: int)
    ensures d * SecondsPerDay <= elapsed < (d + 1) * SecondsPerDay
  {
    elapsed / SecondsPerDay
  }

  /** The reset condition: at least one whole day since the last reset. */
  predicate DayElapsed(s: Subscription, now: Seconds) {
    WholeDays(now - s.lastReset) >= 1
  }

  /** A reset is due exactly when 86400 seconds or more have passed; a clock behind `lastReset` never triggers one. */
  lemma DayElapsedIff(s: Subscription, now: Seconds)
    ensures DayElapsed(s, now) <==> now - s.lastReset >= SecondsPerDay
  {
  }

  /** The daily allotment a reset restores. */
  function Allotment(plan: Plan): nat {
    if plan.tier == TACopilot then FreeTierDailyCredits else plan.credits
  }

  /** `reset_daily_credits`: refill the daily balance when a whole day has elapsed. */
  function ResetDaily(s: Subscription, now: Seconds): (r: Subscription)
    ensures !DayElapsed(s, now) ==> r == s
    ensures DayElapsed(s, now) ==> r.daily == Allotment(s.plan) && r.lastReset == now
    ensures r.referral == s.referral
    ensures r == s.(daily := r.daily, lastReset := r.lastReset)
  {
    if DayElapsed(s, now) then s.(daily := Allotment(s.plan), lastReset := now) else s
  }

  /** The free tier is refilled to 5 even when its catalogue entry grants nothing; other tiers get their catalogue credits. */
  lemma ResetAllotment(s: Subscription, now: Seconds)
    requires DayElapsed(s, now)
    ensures s.plan.tier == TACopilot ==> ResetDaily(s, now).daily == FreeTierDailyCredits
    ensures s.plan.tier != TACopilot ==> ResetDaily(s, now).daily == s.plan.credits
  {
  }

  /** A second reset at the same instant changes nothing. */
  lemma ResetIdempotent(s: Subscription, now: Seconds)
    ensures ResetDaily(ResetDaily(s, now), now) == ResetDaily(s, now)
  {
  }

  /**
   * The window is rolling: once a reset has happened at `t`, every later
   * reset before `t + 86400` is a no-op, however often it is attempted.
   */
  lemma ResetOncePerWindow(s: Subscription, t: Seconds, later: Seconds)
    requires DayElapsed(s, t)
    requires t <= later < t + SecondsPerDay
    ensures ResetDaily(ResetDaily(s, t), later) == ResetDaily(s, t)
  {
  }

  /** `get_available_credits`: the balance after any due reset, with the reset state it saved. */
  function AvailableCredits(s: Subscription, now: Seconds): (r: (Subscription, nat))
    ensures r.0 == ResetDaily(s, now)
    ensures r.1 == r.0.daily + r.0.referral
    ensures r.1 == (if DayElapsed(s, now) then Allotment(s.plan) else s.daily) + s.referral
  {
    var t := ResetDaily(s, now);
    (t, t.daily + t.referral)
  }

  /**
   * The daily-first policy as a relation between balances before and after
   * spending `amount`: the total drops by exactly `amount`, referral credits
   * never grow, and they are only touched once the daily balance is gone.
   */
  predicate DrawsDailyFirst(daily: nat, referral: nat, amount: int, daily': nat, referral': nat) {
    && daily' + referral' == daily + referral - amount
    && referral' <= referral
    && (referral' == referral || daily' == 0)
  }

  /** The deduction branch of `use_credits`, once the balance is known to cover `amount`. */
  function Deduct(daily: nat, referral: nat, amount: int): (r: (nat, nat))
    requires amount <= daily + referral
    ensures DrawsDailyFirst(daily, referral, amount, r.0, r.1)
  {
    if daily >= amount then (daily - amount, referral)
    else (0, referral - (amount - daily))
  }

  /** Daily-first drawing leaves no choice: any split that follows the policy is the one `Deduct` computes. */
  lemma DrawsDailyFirstUnique(daily: nat, referral: nat, amount: int, daily': nat, referral': nat)
    requires amount <= daily + referral
    requires DrawsDailyFirst(daily, referral, amount, daily', referral')
    ensures (daily', referral') == Deduct(daily, referral, amount)
  {
  }

  /** The outcome of `use_credits`: the record as saved, and the boolean answer. */
  datatype Charge = Charge(sub: Subscription, ok: bool)

  /** The free-tier candidate rule: candidate actions on "TA-Copilot" cost nothing. */
  predicate Bypasses(s: Subscription, isCandidate: bool) {
    isCandidate && s.plan.tier == TACopilot
  }

  /**
   * `use_credits`: reset if due, let free-tier candidates through at no
   * cost, otherwise refuse when the post-reset total is short and deduct
   * daily credits first when it is not.
   */
  function UseCredits(s: Subscription, amount: int, isCandidate: bool, now: Seconds): (r: Charge)
    ensures Bypasses(s, isCandidate) ==> r == Charge(ResetDaily(s, now), true)
    ensures !Bypasses(s, isCandidate) ==>
      (r.ok <==> amount <= ResetDaily(s, now).daily + ResetDaily(s, now).referral)
    ensures !r.ok ==> r.sub == ResetDaily(s, now)
    ensures r.ok && !Bypasses(s, isCandidate) ==>
      var s0 := ResetDaily(s, now);
      && DrawsDailyFirst(s0.daily, s0.referral, amount, r.sub.daily, r.sub.referral)
      && r.sub == s0.(daily := r.sub.daily, referral := r.sub.referral)
  {
    var s0 := ResetDaily(s, now);
    if isCandidate && s0.plan.tier == TACopilot then Charge(s0, true)
    else
      var (s1, available) := AvailableCredits(s0, now);
      if available < amount then Charge(s1, false)
      else
        var (d, rc) := Deduct(s1.daily, s1.referral, amount);
        Charge(s1.(daily := d, referral := rc), true)
  }

  /** A successful charge of a positive amount lowers the balance by exactly that amount, and never below zero. */
  lemma UseCreditsSpendsExactly(s: Subscription, amount: int, isCandidate: bool, now: Seconds)
    requires amount > 0 && !Bypasses(s, isCandidate)
    ensures var r := UseCredits(s, amount, isCandidate, now);
      var s0 := ResetDaily(s, now);
      r.ok ==> (&& r.sub.daily + r.sub.referral == s0.daily + s0.referral - amount
                && r.sub.daily <= s0.daily
                && r.sub.referral <= s0.referral)
  {
  }

  /**
   * A link from a referrer subscription to a referred one, counting the
   * referred subscription's usages until the reward is granted.
   */
  datatype Referral = Referral(referrer: SubId, referred: SubId, interviews: nat, rewarded: bool)

  /** The pair `check_reward` saves: the referral and its referrer subscription. */
  datatype Reward = Reward(referral: Referral, referrer: Subscription)

  /**
   * `check_reward`: at the threshold, and only while not yet rewarded,
   * give the referrer one referral credit and mark the referral rewarded.
   */
  function CheckReward(ref: Referral, referrer: Subscription): (r: Reward)
    ensures r.referral == ref.(rewarded := r.referral.rewarded)
    ensures r.referral.rewarded <==> ref.rewarded || ref.interviews >= RewardThreshold
    ensures r.referrer == referrer.(referral := r.referrer.referral)
    ensures r.referrer.referral == referrer.referral + (if r.referral.rewarded && !ref.rewarded then 1 else 0)
  {
    if ref.interviews >= RewardThreshold && !ref.rewarded then
      Reward(ref.(rewarded := true), referrer.(referral := referrer.referral + 1))
    else Reward(ref, referrer)
  }

  /**
   * Once granted, the reward is never granted again: whatever the counter
   * has become since, including a jump far past the threshold, a rewarded
   * referral and its referrer come back unchanged.
   */
  lemma {:induction false} RewardGrantedOnce(ref: Referral, referrer: Subscription, counter: nat)
    requires ref.interviews >= RewardThreshold
    ensures var first := CheckReward(ref, referrer);
      var again := CheckReward(first.referral.(interviews := counter), first.referrer);
      again == Reward(first.referral.(interviews := counter), first.referrer)
  {
    var first := CheckReward(ref, referrer);
    assert first.referral.rewarded;
  }
}

=== FILE: billing_scenarios.dfy ===
/**
 * The billing service's own test scenarios, replayed on the model: a
 * free-tier subscription with five daily credits and a catalogue entry of
 * zero, an employer and a candidate consuming from it, and a referral
 * rewarded after five employer-side consumptions.
 */
module BillingScenarios {
  import opened Wrappers
  import opened BillingModels
  import opened BillingViews

  const FreePlan: Plan := Plan(1, TACopilot, 0)
  const AdvancedPlan: Plan := Plan(2, HumanAdv, 10)

  /** The instant every scenario runs at: the subscriptions were created (and last reset) just now. */
  const Now: Seconds := 1000

  const Referrer: SubId := 1
  const Referred: SubId := 3
  const ReferrerTenant: TenantId := 10
  const ReferredTenant: TenantId := 30

  function FreeSubscription(tenant: TenantId): Subscription {
    NewFreeSubscription(tenant, FreePlan, Now)
  }

  const Advanced: SubId := 2
  const AdvancedTenant: TenantId := 20

  /** The fixture's paid subscription: active, paying by Stripe, ten daily credits. */
  const AdvancedSubscription: Subscription :=
    Subscription(AdvancedTenant, AdvancedPlan, Some("stripe"), None, Active, Now, Now + TermDays * SecondsPerDay, true, 10, 0, Now)

  /** The fixture of the consume tests: one free-tier and one paid subscription, no referral. */
  function SetUpLedger(): Ledger {
    Ledger([FreePlan, AdvancedPlan],
           map[Referrer := FreeSubscription(ReferrerTenant), Advanced := AdvancedSubscription],
           map[], [], [])
  }

  /** Two free-tier subscriptions, the second referred by the first. */
  function ReferralLedger(): Ledger {
    Ledger([FreePlan, AdvancedPlan],
           map[Referrer := FreeSubscription(ReferrerTenant), Referred := FreeSubscription(ReferredTenant)],
           map[], [], [Referral(Referrer, Referred, 0, false)])
  }

  function Spend(credits: int, candidate: bool): ConsumeRequest {
    ConsumeRequest(Some(JInt(credits)), Some(JBool(candidate)))
  }

  /** An employer spending 2 of the free tier's 5 daily credits leaves 3. */
  lemma EmployerSpendsFromDaily()
    ensures var r := Consume(SetUpLedger(), Referrer, ReferrerTenant, Spend(2, false), Now);
      r.result == Success(3) && r.ledger.subs[Referrer].daily == 3
  {
    var s := FreeSubscription(ReferrerTenant);
    assert !DayElapsed(s, Now);
  }

  /** A candidate acting on the free tier spends nothing. */
  lemma CandidateSpendsNothing()
    ensures var r := Consume(SetUpLedger(), Referrer, ReferrerTenant, Spend(2, true), Now);
      r.result == Success(5) && r.ledger.subs[Referrer].daily == 5
  {
    var s := FreeSubscription(ReferrerTenant);
    assert !DayElapsed(s, Now);
  }

  /** Consuming one credit from the referred subscription, as an employer. */
  function ConsumeOne(L: Ledger): (r: Reply<nat>)
    requires Valid(L)
    ensures Valid(r.ledger)
  {
    Consume(L, Referred, ReferredTenant, Spend(1, false), Now)
  }

  /** One usage entry of one credit on the referred subscription. */
  const OneCredit: CreditUsage := CreditUsage(Referred, 1, UsageReason, Now)

  /** The ledger after `k` one-credit employer consumptions on the referred subscription. */
  function AfterConsumes(k: nat): Ledger
    requires k <= 5
  {
    Ledger([FreePlan, AdvancedPlan],
           map[Referrer := FreeSubscription(ReferrerTenant).(referral := if k == 5 then 1 else 0),
               Referred := FreeSubscription(ReferredTenant).(daily := 5 - k)],
           map[], seq(k, _ => OneCredit), [Referral(Referrer, Referred, k, k == 5)])
  }

  /**
   * Each of the first five one-credit consumptions succeeds, takes one daily
   * credit, logs one entry and counts one interview; the fifth rewards the
   * referral and gives the referrer its single referral credit.
   */
  lemma ConsumeOneStep(k: nat)
    requires k < 5
    ensures ConsumeOne(AfterConsumes(k)) == Reply(AfterConsumes(k + 1), Success(4 - k))
  {
    var L := AfterConsumes(k);
    var s := L.subs[Referred];
    assert !DayElapsed(s, Now);
    var charge := UseCredits(s, 1, false, Now);
    assert charge == Charge(s.(daily := 4 - k), true);
    var L2 := L.(subs := L.subs[Referred := charge.sub], usages := L.usages + [OneCredit]);
    assert L.usages + [OneCredit] == seq(k + 1, _ => OneCredit);
    var head := L.referrals[0];
    var checked := CheckReward(head.(interviews := k + 1), L2.subs[Referrer]);
    assert checked.referral == Referral(Referrer, Referred, k + 1, k + 1 == 5);
    assert checked.referrer == FreeSubscription(ReferrerTenant).(referral := if k + 1 == 5 then 1 else 0);
    var adv := AdvanceReferrals(L2.subs, L2.referrals, Referred, 1);
    assert L2.referrals == [head] && L2.referrals[1..] == [];
    var rest := AdvanceReferrals(L2.subs[Referrer := checked.referrer], L2.referrals[1..], Referred, 1);
    assert rest == (L2.subs[Referrer := checked.referrer], []);
    assert adv == (rest.0, [checked.referral] + rest.1);
    assert [checked.referral] + rest.1 == [checked.referral];
    assert adv == (L2.subs[Referrer := checked.referrer], [checked.referral]);
    assert adv.0 == AfterConsumes(k + 1).subs;
    assert AvailableCredits(charge.sub, Now).1 == 4 - k;
  }

  /** The ledger after `n` one-credit employer consumptions on the referred subscription, starting fresh. */
  function ConsumeTimes(n: nat): (L: Ledger)
    ensures Valid(L)
  {
    if n == 0 then ReferralLedger() else ConsumeOne(ConsumeTimes(n - 1)).ledger
  }

  /**
   * The replayed referral test: five consumptions from the fresh ledger
   * use up the daily credits, count five interviews, reward the referral
   * and give the referrer exactly one referral credit.
   */
  lemma {:induction false} ReferralRewardedAfterFive(n: nat)
    requires n <= 5
    ensures ConsumeTimes(n) == AfterConsumes(n)
    ensures n == 5 ==> ConsumeTimes(n).referrals == [Referral(Referrer, Referred, 5, true)]
    ensures n == 5 ==> ConsumeTimes(n).subs[Referrer].referral == 1 && ConsumeTimes(n).subs[Referred].daily == 0
  {
    if n == 0 {
      assert AfterConsumes(0).usages == [];
    } else {
      ReferralRewardedAfterFive(n - 1);
      ConsumeOneStep(n - 1);
    }
  }

  /** A sixth consumption is refused for insufficient credits, changing nothing and rewarding nothing more. */
  lemma SixthConsumeRefused()
    ensures ConsumeOne(AfterConsumes(5)) == Reply(AfterConsumes(5), Failure(InsufficientCredits))
  {
    var L := AfterConsumes(5);
    assert !DayElapsed(L.subs[Referred], Now);
    assert L.subs[Referred := ResetDaily(L.subs[Referred], Now)] == L.subs;
  }
}

=== FILE: billing_views.dfy ===
/**
 * The billing endpoints that change ledger state, as guard-then-transition
 * functions over an in-memory ledger: consume credits, cancel, pay an
 * invoice, create a subscription and create a referral.
 *
 * Each endpoint returns the ledger as persisted afterwards together with
 * the answer it gives; an error answer carries the kind of error payload.
 * Values the endpoints obtain from the outside world (the clock, freshly
 * generated primary keys, payment-provider results) are parameters.
 */
module BillingViews {
  import opened Wrappers
  import opened BillingModels

  type InvoiceId = nat

  /** Length of a new subscription's term, in days. */
  const TermDays: int := 30

  /** The reason recorded on every consumption entry. */
  const UsageReason: string := "Interview scheduled"

  datatype InvoiceStatus = Paid | Unpaid | Failed

  datatype Invoice = Invoice(sub: SubId, status: InvoiceStatus, paymentId: Option<string>)

  /** One append-only consumption log entry. */
  datatype CreditUsage = CreditUsage(sub: SubId, amount: nat, reason: string, usedAt: Seconds)

  /** The persisted state of the billing service. */
  datatype Ledger = Ledger(
    plans: seq<Plan>,
    subs: map<SubId, Subscription>,
    invoices: map<InvoiceId, Invoice>,
    usages: seq<CreditUsage>,
    referrals: seq<Referral>)

  /** Referential integrity, as the foreign keys enforce it. */
  predicate Valid(L: Ledger) {
    && (forall i :: 0 <= i < |L.referrals| ==> L.referrals[i].referrer in L.subs && L.referrals[i].referred in L.subs)
    && (forall i :: 0 <= i < |L.usages| ==> L.usages[i].sub in L.subs)
    && (forall k :: k in L.invoices ==> L.invoices[k].sub in L.subs)
  }

  datatype Error =
    | NotFound
    | InvalidStatus
    | InvalidCredits
    | InsufficientCredits
    | AlreadyPaid
    | InvalidPaymentMethod
    | GatewayFailed
    | CreationFailed

  /** What an endpoint leaves behind and what it answers. */
  datatype Reply<T> = Reply(ledger: Ledger, result: Result<T, Error>)

  /** A decoded JSON request value; `JOther` stands for floats, lists and objects. */
  datatype Json = JNull | JBool(b: bool) | JInt(i: int) | JStr(s: string) | JOther(truthy: bool)

  /** Python truthiness of a decoded JSON value. */
  predicate Truthy(j: Json) {
    match j
    case JNull => false
    case JBool(b) => b
    case JInt(i) => i != 0
    case JStr(s) => s != ""
    case JOther(t) => t
  }

  /**
   * The `credits` field: 1 when absent; accepted only when it is an
   * integer above zero. Python's `bool` is a subclass of `int`, so `true`
   * passes the check and counts as 1, while `false` is rejected as 0.
   */
  function CreditsParam(credits: Option<Json>): (r: Option<nat>)
    ensures r.Some? ==> r.value >= 1
    ensures credits.None? ==> r == Some(1)
    ensures credits.Some? && credits.value.JInt? ==> (r.Some? <==> credits.value.i > 0)
    ensures credits.Some? && (credits.value.JStr? || credits.value.JNull? || credits.value.JOther?) ==> r.None?
    ensures credits.Some? && credits.value.JInt? && credits.value.i > 0 ==> r == Some(credits.value.i)
    ensures credits.Some? && credits.value.JBool? ==> r == (if credits.value.b then Some(1) else None)
  {
    match credits
    case None => Some(1)
    case Some(JInt(i)) => if i > 0 then Some(i) else None
    case Some(JBool(b)) => if b then Some(1) else None
    case Some(_) => None
  }

  /** The `is_candidate` field, used for its truthiness; absent means false. */
  function IsCandidateParam(isCandidate: Option<Json>): (r: bool)
    ensures isCandidate.None? || isCandidate == Some(JNull) ==> !r
    ensures isCandidate.Some? && isCandidate.value.JBool? ==> r == isCandidate.value.b
    ensures isCandidate.Some? && isCandidate.value.JInt? ==> (r <==> isCandidate.value.i != 0)
    ensures isCandidate.Some? && isCandidate.value.JStr? ==> (r <==> isCandidate.value.s != "")
  {
    isCandidate.Some? && Truthy(isCandidate.value)
  }

  datatype ConsumeRequest = ConsumeRequest(credits: Option<Json>, isCandidate: Option<Json>)

  /** The tenant-scoped lookup `Subscription.objects.get(id=..., tenant_id=...)` succeeds. */
  predicate OwnedBy(L: Ledger, id: SubId, tenant: TenantId) {
    id in L.subs && L.subs[id].tenant == tenant
  }

  /** How many referrals to `k` were rewarded on the way from `before` to `after`. */
  function Grants(k: SubId, before: seq<Referral>, after: seq<Referral>): nat
    requires |before| == |after|
  {
    if |before| == 0 then 0
    else
      (if before[0].referrer == k && !before[0].rewarded && after[0].rewarded then 1 else 0)
      + Grants(k, before[1..], after[1..])
  }

  /**
   * The referral loop of the consume endpoint: in order, every referral of
   * subscription `id` counts `amount` more usages and then has its reward
   * checked, which may credit its referrer.
   */
  function AdvanceReferrals(subs: map<SubId, Subscription>, refs: seq<Referral>, id: SubId, amount: nat)
    : (r: (map<SubId, Subscription>, seq<Referral>))
    requires forall i :: 0 <= i < |refs| ==> refs[i].referrer in subs
    ensures r.0.Keys == subs.Keys
    ensures |r.1| == |refs|
    decreases |refs|
  {
    if |refs| == 0 then (subs, [])
    else
      var head := refs[0];
      if head.referred != id then
        var rest := AdvanceReferrals(subs, refs[1..], id, amount);
        (rest.0, [head] + rest.1)
      else
        var checked := CheckReward(head.(interviews := head.interviews + amount), subs[head.referrer]);
        var rest := AdvanceReferrals(subs[head.referrer := checked.referrer], refs[1..], id, amount);
        (rest.0, [checked.referral] + rest.1)
  }

  /**
   * What the referral loop does to the referrals: those of subscription `id`
   * count `amount` more usages and are rewarded once they reach the
   * threshold; the reward flag never goes back; all others stay as they were.
   */
  lemma {:induction false} AdvanceReferralsCounts(subs: map<SubId, Subscription>, refs: seq<Referral>, id: SubId, amount: nat)
    requires forall i :: 0 <= i < |refs| ==> refs[i].referrer in subs
    ensures var r := AdvanceReferrals(subs, refs, id, amount);
      && (forall i :: 0 <= i < |refs| && refs[i].referred != id ==> r.1[i] == refs[i])
      && (forall i :: 0 <= i < |refs| && refs[i].referred == id ==>
            && r.1[i] == refs[i].(interviews := r.1[i].interviews, rewarded := r.1[i].rewarded)
            && r.1[i].interviews == refs[i].interviews + amount
            && (r.1[i].rewarded <==> refs[i].rewarded || refs[i].interviews + amount >= RewardThreshold))
    decreases |refs|
  {
    if |refs| > 0 {
      var head := refs[0];
      var r := AdvanceReferrals(subs, refs, id, amount);
      if head.referred != id {
        AdvanceReferralsCounts(subs, refs[1..], id, amount);
        assert r.1 == [head] + AdvanceReferrals(subs, refs[1..], id, amount).1;
      } else {
        var checked := CheckReward(head.(interviews := head.interviews + amount), subs[head.referrer]);
        var subs1 := subs[head.referrer := checked.referrer];
        AdvanceReferralsCounts(subs1, refs[1..], id, amount);
        assert r.1 == [checked.referral] + AdvanceReferrals(subs1, refs[1..], id, amount).1;
      }
    }
  }

  /**
   * What the referral loop does to the subscriptions: only referral credits
   * change, and each referrer gains exactly one credit per referral that
   * was rewarded during this loop.
   */
  lemma {:induction false} AdvanceReferralsCredits(subs: map<SubId, Subscription>, refs: seq<Referral>, id: SubId, amount: nat)
    requires forall i :: 0 <= i < |refs| ==> refs[i].referrer in subs
    ensures var r := AdvanceReferrals(subs, refs, id, amount);
      forall k :: k in subs ==>
        && r.0[k] == subs[k].(referral := r.0[k].referral)
        && r.0[k].referral == subs[k].referral + Grants(k, refs, r.1)
    decreases |refs|
  {
    if |refs| > 0 {
      var head := refs[0];
      var r := AdvanceReferrals(subs, refs, id, amount);
      if head.referred != id {
        var rest := AdvanceReferrals(subs, refs[1..], id, amount);
        AdvanceReferralsCredits(subs, refs[1..], id, amount);
        assert r.1[1..] == rest.1;
      } else {
        var checked := CheckReward(head.(interviews := head.interviews + amount), subs[head.referrer]);
        var subs1 := subs[head.referrer := checked.referrer];
        var rest := AdvanceReferrals(subs1, refs[1..], id, amount);
        AdvanceReferralsCredits(subs1, refs[1..], id, amount);
        assert r.1[1..] == rest.1;
        assert r.1[0] == checked.referral;
      }
    }
  }

  /**
   * `ConsumeCreditsView.post`: tenant-scoped lookup, then the active-status
   * check, then validation of `credits`, then `use_credits`; on success one
   * usage entry is appended and, for non-candidate actions, the referrals of
   * this subscription advance. The answer reports the balance of the
   * in-memory record after the charge.
   */
  function Consume(L: Ledger, id: SubId, tenant: TenantId, req: ConsumeRequest, now: Seconds): (r: Reply<nat>)
    requires Valid(L)
    ensures !OwnedBy(L, id, tenant) ==> r == Reply(L, Failure(NotFound))
    ensures OwnedBy(L, id, tenant) && L.subs[id].status != Active ==> r == Reply(L, Failure(InvalidStatus))
    ensures OwnedBy(L, id, tenant) && L.subs[id].status == Active && CreditsParam(req.credits).None? ==>
      r == Reply(L, Failure(InvalidCredits))
    ensures r.result.Success? ==>
      && OwnedBy(L, id, tenant)
      && CreditsParam(req.credits).Some?
      && r.ledger.usages == L.usages + [CreditUsage(id, CreditsParam(req.credits).value, UsageReason, now)]
    ensures r.result.Success? ==>
      var charged := UseCredits(L.subs[id], CreditsParam(req.credits).value, IsCandidateParam(req.isCandidate), now).sub;
      && id in r.ledger.subs
      && r.ledger.subs[id] == charged.(referral := r.ledger.subs[id].referral)
    ensures r.result.Success? && IsCandidateParam(req.isCandidate) ==>
      && r.ledger.subs == L.subs[id := UseCredits(L.subs[id], CreditsParam(req.credits).value, true, now).sub]
      && r.ledger.referrals == L.referrals
    ensures r.ledger.plans == L.plans && r.ledger.invoices == L.invoices && r.ledger.subs.Keys == L.subs.Keys
    ensures r.result.Success? ==>
      forall k :: k in L.subs && k != id ==> r.ledger.subs[k] == L.subs[k].(referral := r.ledger.subs[k].referral)
    ensures r.result == Failure(InsufficientCredits) ==>
      && id in L.subs
      && r.ledger == L.(subs := L.subs[id := ResetDaily(L.subs[id], now)])
    ensures Valid(r.ledger)
  {
    if !OwnedBy(L, id, tenant) then Reply(L, Failure(NotFound))
    else
      var s := L.subs[id];
      if s.status != Active then Reply(L, Failure(InvalidStatus))
      else match CreditsParam(req.credits)
        case None => Reply(L, Failure(InvalidCredits))
        case Some(amount) =>
          var candidate := IsCandidateParam(req.isCandidate);
          var charge := UseCredits(s, amount, candidate, now);
          var L1 := L.(subs := L.subs[id := charge.sub]);
          if !charge.ok then Reply(L1, Failure(InsufficientCredits))
          else
            Reply(Commit(L1, id, amount, candidate, now), Success(AvailableCredits(charge.sub, now).1))
  }

  /**
   * The success path of the consume endpoint once the charged record is
   * stored: one usage entry, then, for non-candidate actions, the referral
   * loop. The charged record keeps everything but its referral credits.
   */
  function Commit(L: Ledger, id: SubId, amount: nat, candidate: bool, now: Seconds): (r: Ledger)
    requires Valid(L) && id in L.subs
    ensures r.plans == L.plans && r.invoices == L.invoices && r.subs.Keys == L.subs.Keys
    ensures r.usages == L.usages + [CreditUsage(id, amount, UsageReason, now)]
    ensures candidate ==> r.subs == L.subs && r.referrals == L.referrals
    ensures forall k :: k in L.subs ==> r.subs[k] == L.subs[k].(referral := r.subs[k].referral)
    ensures forall k :: k in L.subs ==> r.subs[k].referral >= L.subs[k].referral
    ensures Valid(r)
  {
    var L2 := L.(usages := L.usages + [CreditUsage(id, amount, UsageReason, now)]);
    var adv := AdvanceReferrals(L2.subs, L2.referrals, id, amount);
    AdvanceReferralsCounts(L2.subs, L2.referrals, id, amount);
    AdvanceReferralsCredits(L2.subs, L2.referrals, id, amount);
    if candidate then L2 else L2.(subs := adv.0, referrals := adv.1)
  }

  /**
   * The consume endpoint succeeds exactly when the subscription is the
   * tenant's, active, asked for a valid amount, and either the free-tier
   * candidate rule applies or the post-reset balance covers the amount;
   * the balance it reports is the charged record's.
   */
  lemma ConsumeSucceedsIff(L: Ledger, id: SubId, tenant: TenantId, req: ConsumeRequest, now: Seconds)
    requires Valid(L)
    ensures var r := Consume(L, id, tenant, req, now);
      r.result.Success? <==>
        && OwnedBy(L, id, tenant)
        && L.subs[id].status == Active
        && CreditsParam(req.credits).Some?
        && var s0 := ResetDaily(L.subs[id], now);
           (Bypasses(L.subs[id], IsCandidateParam(req.isCandidate))
            || CreditsParam(req.credits).value <= s0.daily + s0.referral)
    ensures var r := Consume(L, id, tenant, req, now);
      r.result.Success? ==>
        var charge := UseCredits(L.subs[id], CreditsParam(req.credits).value, IsCandidateParam(req.isCandidate), now);
        r.result.value == charge.sub.daily + charge.sub.referral
  {
    var r := Consume(L, id, tenant, req, now);
    if r.result.Success? {
      var charge := UseCredits(L.subs[id], CreditsParam(req.credits).value, IsCandidateParam(req.isCandidate), now);
      ResetIdempotent(L.subs[id], now);
      if !Bypasses(L.subs[id], IsCandidateParam(req.isCandidate)) {
        assert charge.sub.lastReset == ResetDaily(L.subs[id], now).lastReset;
      }
    }
  }

  /** A refused charge leaves no usage entry and no referral change, and keeps only the reset it performed. */
  lemma ConsumeInsufficientLeavesLogs(L: Ledger, id: SubId, tenant: TenantId, req: ConsumeRequest, now: Seconds)
    requires Valid(L)
    requires OwnedBy(L, id, tenant) && L.subs[id].status == Active && CreditsParam(req.credits).Some?
    requires !Bypasses(L.subs[id], IsCandidateParam(req.isCandidate))
    requires CreditsParam(req.credits).value > ResetDaily(L.subs[id], now).daily + ResetDaily(L.subs[id], now).referral
    ensures var r := Consume(L, id, tenant, req, now);
      && r.result == Failure(InsufficientCredits)
      && r.ledger.usages == L.usages
      && r.ledger.referrals == L.referrals
      && r.ledger.subs[id].daily == ResetDaily(L.subs[id], now).daily
      && r.ledger.subs[id].referral == L.subs[id].referral
  {
  }

  /** Candidate actions never advance referrals, whatever the plan. */
  lemma ConsumeCandidateKeepsReferrals(L: Ledger, id: SubId, tenant: TenantId, req: ConsumeRequest, now: Seconds)
    requires Valid(L)
    requires IsCandidateParam(req.isCandidate)
    ensures Consume(L, id, tenant, req, now).ledger.referrals == L.referrals
  {
  }

  /**
   * A successful employer-side charge adds the charged amount to every
   * referral of this subscription, rewards exactly those that reach the
   * threshold for the first time, credits each referrer one per such
   * referral, and leaves every other referral as it was.
   */
  lemma ConsumeAdvancesReferrals(L: Ledger, id: SubId, tenant: TenantId, req: ConsumeRequest, now: Seconds)
    requires Valid(L)
    requires !IsCandidateParam(req.isCandidate)
    ensures var r := Consume(L, id, tenant, req, now);
      r.result.Success? ==>
        var amount := CreditsParam(req.credits).value;
        var charged := L.subs[id := UseCredits(L.subs[id], amount, false, now).sub];
        && |r.ledger.referrals| == |L.referrals|
        && (forall i :: 0 <= i < |L.referrals| && L.referrals[i].referred != id ==>
              r.ledger.referrals[i] == L.referrals[i])
        && (forall i :: 0 <= i < |L.referrals| && L.referrals[i].referred == id ==>
              && r.ledger.referrals[i].interviews == L.referrals[i].interviews + amount
              && (r.ledger.referrals[i].rewarded <==>
                    L.referrals[i].rewarded || L.referrals[i].interviews + amount >= RewardThreshold))
        && (forall k :: k in charged ==>
              r.ledger.subs[k].referral == charged[k].referral + Grants(k, L.referrals, r.ledger.referrals))
  {
    var r := Consume(L, id, tenant, req, now);
    if r.result.Success? {
      var amount := CreditsParam(req.credits).value;
      var charged := L.subs[id := UseCredits(L.subs[id], amount, false, now).sub];
      AdvanceReferralsCounts(charged, L.referrals, id, amount);
      AdvanceReferralsCredits(charged, L.referrals, id, amount);
    }
  }

  /** A `credits` value that is not a positive integer is refused before anything changes. */
  lemma ConsumeRejectsInvalidCredits(L: Ledger, id: SubId, tenant: TenantId, req: ConsumeRequest, now: Seconds)
    requires Valid(L)
    requires OwnedBy(L, id, tenant) && L.subs[id].status == Active
    requires req.credits.Some? && (req.credits.value == JInt(0) || req.credits.value.JStr? || req.credits.value == JBool(false))
    ensures Consume(L, id, tenant, req, now) == Reply(L, Failure(InvalidCredits))
  {
  }

  /** `CancelSubscriptionView.post`: only an active subscription may be cancelled; it stops auto-renewing. */
  function Cancel(L: Ledger, id: SubId, tenant: TenantId): (r: Reply<()>)
    ensures !OwnedBy(L, id, tenant) ==> r == Reply(L, Failure(NotFound))
    ensures OwnedBy(L, id, tenant) && L.subs[id].status != Active ==> r == Reply(L, Failure(InvalidStatus))
    ensures r.result.Success? <==> OwnedBy(L, id, tenant) && L.subs[id].status == Active
    ensures r.result.Success? ==>
      && id in L.subs
      && r.ledger == L.(subs := L.subs[id := L.subs[id].(status := Cancelled, autoRenew := false)])
  {
    if !OwnedBy(L, id, tenant) then Reply(L, Failure(NotFound))
    else
      var s := L.subs[id];
      if s.status != Active then Reply(L, Failure(InvalidStatus))
      else Reply(L.(subs := L.subs[id := s.(status := Cancelled, autoRenew := false)]), Success(()))
  }

  /** A second cancellation is refused and changes nothing. */
  lemma CancelOnce(L: Ledger, id: SubId, tenant: TenantId)
    requires Cancel(L, id, tenant).result.Success?
    ensures var once := Cancel(L, id, tenant).ledger;
      Cancel(once, id, tenant) == Reply(once, Failure(InvalidStatus))
  {
  }

  /** The payment methods the endpoints know a gateway for. */
  predicate KnownGateway(m: Option<string>) {
    m == Some("stripe") || m == Some("razorpay") || m == Some("paypal")
  }

  /**
   * `PayInvoiceView.post`. `gateway` is what the payment provider call
   * produced: the new payment id, or `None` when it raised.
   */
  function PayInvoice(L: Ledger, invoiceId: InvoiceId, tenant: TenantId, gateway: Option<string>): (r: Reply<string>)
    ensures invoiceId !in L.invoices || !OwnedBy(L, L.invoices[invoiceId].sub, tenant) ==>
      r == Reply(L, Failure(NotFound))
    ensures r.result == Failure(AlreadyPaid) <==>
      invoiceId in L.invoices && OwnedBy(L, L.invoices[invoiceId].sub, tenant) && L.invoices[invoiceId].status == Paid
    ensures r.result.Failure? ==> r.ledger == L
    ensures r.result.Success? <==>
      && invoiceId in L.invoices
      && OwnedBy(L, L.invoices[invoiceId].sub, tenant)
      && L.invoices[invoiceId].status != Paid
      && KnownGateway(L.subs[L.invoices[invoiceId].sub].paymentMethod)
      && gateway.Some?
    ensures r.result.Success? ==>
      && invoiceId in L.invoices
      && var inv := L.invoices[invoiceId];
      && inv.status != Paid
      && OwnedBy(L, inv.sub, tenant)
      && KnownGateway(L.subs[inv.sub].paymentMethod)
      && gateway == Some(r.result.value)
      && r.ledger.invoices == L.invoices[invoiceId := inv.(status := Paid, paymentId := gateway)]
      && r.ledger.subs == L.subs[inv.sub := L.subs[inv.sub].(status := Active)]
      && r.ledger.usages == L.usages && r.ledger.referrals == L.referrals && r.ledger.plans == L.plans
  {
    if invoiceId !in L.invoices || !OwnedBy(L, L.invoices[invoiceId].sub, tenant) then Reply(L, Failure(NotFound))
    else
      var inv := L.invoices[invoiceId];
      if inv.status == Paid then Reply(L, Failure(AlreadyPaid))
      else
        var s := L.subs[inv.sub];
        if !KnownGateway(s.paymentMethod) then Reply(L, Failure(InvalidPaymentMethod))
        else match gateway
          case None => Reply(L, Failure(GatewayFailed))
          case Some(pid) =>
            Reply(L.(invoices := L.invoices[invoiceId := inv.(status := Paid, paymentId := Some(pid))],
                     subs := L.subs[inv.sub := s.(status := Active)]),
                  Success(pid))
  }

  /** Paying an outstanding invoice reactivates its subscription even after it was cancelled. */
  lemma PayInvoiceReactivatesCancelled(L: Ledger, invoiceId: InvoiceId, tenant: TenantId, pid: string)
    requires invoiceId in L.invoices && OwnedBy(L, L.invoices[invoiceId].sub, tenant)
    requires L.invoices[invoiceId].status == Unpaid
    requires L.subs[L.invoices[invoiceId].sub].status == Cancelled
    requires KnownGateway(L.subs[L.invoices[invoiceId].sub].paymentMethod)
    ensures var r := PayInvoice(L, invoiceId, tenant, Some(pid));
      r.result == Success(pid) && r.ledger.subs[L.invoices[invoiceId].sub].status == Active
  {
  }

  /** The record both the free-tier signup and the referral auto-signup create. */
  function NewFreeSubscription(tenant: TenantId, plan: Plan, now: Seconds): (s: Subscription)
    ensures s.status == Active && s.daily == FreeTierDailyCredits && s.paymentMethod.None?
    ensures s.referral == 0 && s.lastReset == now && s.end == now + TermDays * SecondsPerDay
  {
    Subscription(tenant, plan, None, None, Active, now, now + TermDays * SecondsPerDay, true,
                 FreeTierDailyCredits, 0, now)
  }

  /**
   * `CreateSubscriptionView.post`. The row is saved as `pending` before the
   * payment method is examined, so a paid-plan request with an unknown
   * method, or whose provider call raises, leaves that pending row behind.
   * A successful paid-plan signup also gets an unpaid invoice.
   */
  function CreateSubscription(L: Ledger, tenant: TenantId, planId: PlanId, paymentMethod: Option<string>,
                              gateway: Option<string>, newSub: SubId, newInvoice: InvoiceId, now: Seconds)
    : (r: Reply<SubId>)
    requires newSub !in L.subs && newInvoice !in L.invoices
    ensures FindPlan(L.plans, (p: Plan) => p.id == planId).None? <==> r == Reply(L, Failure(NotFound))
    ensures r.ledger.usages == L.usages && r.ledger.referrals == L.referrals && r.ledger.plans == L.plans
    ensures r.ledger.subs.Keys <= L.subs.Keys + {newSub}
    ensures forall k :: k in L.subs ==> k in r.ledger.subs && r.ledger.subs[k] == L.subs[k]
    ensures r.result.Success? ==> r.result.value == newSub && newSub in r.ledger.subs
    ensures Valid(L) ==> Valid(r.ledger)
  {
    match FindPlan(L.plans, (p: Plan) => p.id == planId)
    case None => Reply(L, Failure(NotFound))
    case Some(plan) =>
      if plan.tier == TACopilot then
        Reply(L.(subs := L.subs[newSub := NewFreeSubscription(tenant, plan, now)]), Success(newSub))
      else
        var pending := Subscription(tenant, plan, paymentMethod, None, Pending, now,
                                    now + TermDays * SecondsPerDay, true, 0, 0, now);
        var L1 := L.(subs := L.subs[newSub := pending]);
        if !KnownGateway(paymentMethod) then Reply(L1, Failure(InvalidPaymentMethod))
        else match gateway
          case None => Reply(L1, Failure(GatewayFailed))
          case Some(pid) =>
            Reply(L1.(subs := L.subs[newSub := pending.(paymentId := gateway)],
                      invoices := L.invoices[newInvoice := Invoice(newSub, Unpaid, None)]),
                  Success(newSub))
  }

  /**
   * `CreateSubscriptionView.post` as written: the serializer declares `plan`
   * read-only, so `serializer.save()` inserts a subscription without its
   * required plan and raises; the catch-all turns that into "Creation
   * failed". Only a missing plan is answered differently, with not-found.
   */
  function CreateSubscriptionAsWritten(L: Ledger, planId: PlanId): (r: Reply<SubId>)
    ensures r.ledger == L && r.result.Failure?
    ensures r.result == Failure(NotFound) <==> FindPlan(L.plans, (p: Plan) => p.id == planId).None?
  {
    match FindPlan(L.plans, (p: Plan) => p.id == planId)
    case None => Reply(L, Failure(NotFound))
    case Some(_) => Reply(L, Failure(CreationFailed))
  }

  /**
   * For every plan that exists, the code as written answers "Creation
   * failed" and stores nothing, where the intended flow never answers that.
   */
  lemma CreateSubscriptionAsWrittenFails(L: Ledger, tenant: TenantId, planId: PlanId, paymentMethod: Option<string>,
                                         gateway: Option<string>, newSub: SubId, newInvoice: InvoiceId, now: Seconds)
    requires newSub !in L.subs && newInvoice !in L.invoices
    requires FindPlan(L.plans, (p: Plan) => p.id == planId).Some?
    ensures CreateSubscriptionAsWritten(L, planId) == Reply(L, Failure(CreationFailed))
    ensures CreateSubscription(L, tenant, planId, paymentMethod, gateway, newSub, newInvoice, now).result != Failure(CreationFailed)
  {
  }

  /** A free-tier signup starts active with five daily credits and no payment method, and bills nothing. */
  lemma CreateFreeSubscription(L: Ledger, tenant: TenantId, plan: Plan, paymentMethod: Option<string>,
                               gateway: Option<string>, newSub: SubId, newInvoice: InvoiceId, now: Seconds)
    requires newSub !in L.subs && newInvoice !in L.invoices
    requires plan in L.plans && plan.tier == TACopilot && UniqueCatalog(L.plans)
    ensures var r := CreateSubscription(L, tenant, plan.id, paymentMethod, gateway, newSub, newInvoice, now);
      && r.result == Success(newSub)
      && r.ledger.subs[newSub] == NewFreeSubscription(tenant, plan, now)
      && r.ledger.invoices == L.invoices
  {
    var found := FindPlan(L.plans, (p: Plan) => p.id == plan.id);
    assert found.Some?;
    var i :| 0 <= i < |L.plans| && L.plans[i] == found.value;
    var j :| 0 <= j < |L.plans| && L.plans[j] == plan;
    assert i == j;
  }

  /** A non-empty set of ids has a least element. */
  lemma {:induction false} HasLeast(ids: set<SubId>, x: SubId)
    requires x in ids
    ensures exists m :: m in ids && forall k :: k in ids ==> m <= k
    decreases x
  {
    if exists y :: y in ids && y < x {
      var y :| y in ids && y < x;
      HasLeast(ids, y);
    } else {
      assert forall k :: k in ids ==> x <= k;
    }
  }

  /** The least id in a non-empty set: the row `.first()` returns when it orders by primary key. */
  function Least(ids: set<SubId>): (m: SubId)
    requires ids != {}
    ensures m in ids && forall k :: k in ids ==> m <= k
  {
    var x :| x in ids;
    HasLeast(ids, x);
    var m :| m in ids && forall k :: k in ids ==> m <= k;
    m
  }

  /** `Subscription.objects.filter(tenant_id=tenant).first()`. */
  function FirstOfTenant(subs: map<SubId, Subscription>, tenant: TenantId): (r: Option<SubId>)
    ensures r.Some? ==> r.value in subs && subs[r.value].tenant == tenant
    ensures r.Some? ==> forall k :: k in subs && subs[k].tenant == tenant ==> r.value <= k
    ensures r.None? <==> forall k :: k in subs ==> subs[k].tenant != tenant
  {
    var ids := set k | k in subs && subs[k].tenant == tenant;
    assert forall k :: k in subs && subs[k].tenant == tenant ==> k in ids;
    if ids == {} then None else Some(Least(ids))
  }

  /**
   * `CreateReferralView.post`: the referrer must belong to the calling
   * tenant; the referred tenant's first subscription is used, or a free-tier
   * one is created for it; the new referral starts at zero, unrewarded.
   * The answer is the new referral's key, its position in the referral log.
   */
  function CreateReferral(L: Ledger, referrerId: SubId, tenant: TenantId, referredTenant: TenantId,
                          newSub: SubId, now: Seconds): (r: Reply<nat>)
    requires newSub !in L.subs
    ensures !OwnedBy(L, referrerId, tenant) ==> r == Reply(L, Failure(NotFound))
    ensures r.result.Failure? ==> r.ledger == L
    ensures r.result.Success? <==>
      && OwnedBy(L, referrerId, tenant)
      && (FirstOfTenant(L.subs, referredTenant).Some? || exists p :: p in L.plans && p.tier == TACopilot)
    ensures r.result.Success? ==>
      && OwnedBy(L, referrerId, tenant)
      && r.result.value == |L.referrals|
      && |r.ledger.referrals| == |L.referrals| + 1
      && var made := r.ledger.referrals[r.result.value];
         && r.ledger.referrals == L.referrals + [Referral(referrerId, made.referred, 0, false)]
         && made.referred in r.ledger.subs
         && r.ledger.subs == L.subs[made.referred := r.ledger.subs[made.referred]]
         && r.ledger.subs[made.referred].tenant == referredTenant
         && r.ledger.usages == L.usages && r.ledger.invoices == L.invoices && r.ledger.plans == L.plans
    ensures OwnedBy(L, referrerId, tenant) && FirstOfTenant(L.subs, referredTenant).Some? ==>
      && r.result.Success?
      && r.ledger.referrals[r.result.value].referred == FirstOfTenant(L.subs, referredTenant).value
      && r.ledger.subs == L.subs
    ensures Valid(L) ==> Valid(r.ledger)
  {
    if !OwnedBy(L, referrerId, tenant) then Reply(L, Failure(NotFound))
    else
      match FirstOfTenant(L.subs, referredTenant)
      case Some(referred) =>
        Reply(L.(referrals := L.referrals + [Referral(referrerId, referred, 0, false)]), Success(|L.referrals|))
      case None =>
        match FindPlan(L.plans, (p: Plan) => p.tier == TACopilot)
        case None => Reply(L, Failure(NotFound))
        case Some(plan) =>
          Reply(L.(subs := L.subs[newSub := NewFreeSubscription(referredTenant, plan, now)],
                   referrals := L.referrals + [Referral(referrerId, newSub, 0, false)]),
                Success(|L.referrals|))
  }

  /**
   * Referring a tenant that has no subscription signs it up to the free tier:
   * active, five daily credits, no payment method.
   */
  lemma ReferralCreatesFreeSubscription(L: Ledger, referrerId: SubId, tenant: TenantId, referredTenant: TenantId,
                                        newSub: SubId, now: Seconds)
    requires newSub !in L.subs
    requires OwnedBy(L, referrerId, tenant)
    requires forall k :: k in L.subs ==> L.subs[k].tenant != referredTenant
    requires exists p :: p in L.plans && p.tier == TACopilot
    ensures var r := CreateReferral(L, referrerId, tenant, referredTenant, newSub, now);
      && r.result == Success(|L.referrals|)
      && r.ledger.referrals[|L.referrals|] == Referral(referrerId, newSub, 0, false)
      && r.ledger.subs[newSub].status == Active
      && r.ledger.subs[newSub].daily == FreeTierDailyCredits
      && r.ledger.subs[newSub].paymentMethod.None?
  {
  }
}

=== FILE: resume_entries.dfy ===
/**
 * The resume parser's two stateful list builders: experience entries,
 * assembled from date lines, titles and description fragments, and
 * education entries, assembled from a degree line and the detail lines
 * that follow it.
 *
 * Each `while` loop of the parser is a recursive function over the line
 * index and the loop's variables; the loop invariants are predicates that
 * a step lemma shows each iteration keeps.
 */
module ResumeEntries {
  import opened Wrappers
  import opened Text
  import opened ResumeSections
  import opened ResumeLists

  /** Python truthiness of an optional text field: present and non-empty. */
  predicate Filled(o: Option<String>) {
    o.Some? && o.value != []
  }

  // ---------------------------------------------------------------------
  // Experience
  // ---------------------------------------------------------------------

  /** A description keeps at most this many fragments. */
  const MaxDescriptionLines: nat := 20

  /** One experience entry; `company` and `duration` are keys the entry may lack. */
  datatype Experience = Experience(title: String, company: Option<String>, duration: Option<String>, description: String)

  /** The fields gathered so far for the entry being read (`current_exp`). */
  datatype ExperienceDraft = ExperienceDraft(title: Option<String>, company: Option<String>, duration: Option<String>)

  const NoExperience: ExperienceDraft := ExperienceDraft(None, None, None)

  /** The loop's variables: finished entries, the draft, and its description fragments. */
  datatype ExperienceScan = ExperienceScan(exps: seq<Experience>, cur: ExperienceDraft, desc: seq<String>)

  /** `re.match('[A-Z]', line)`. */
  predicate StartsUpper(line: String) {
    |line| > 0 && IsAsciiUpper(line[0])
  }

  function Min(a: nat, b: nat): nat {
    if a <= b then a else b
  }

  /** The first twenty fragments joined by single spaces. */
  function Describe(fragments: seq<String>): String {
    Join(fragments[..Min(|fragments|, MaxDescriptionLines)], " ")
  }

  /** The draft becomes an entry with the description of its fragments. */
  function Close(cur: ExperienceDraft, desc: seq<String>): Experience
    requires cur.title.Some?
  {
    Experience(cur.title.value, cur.company, cur.duration, Describe(desc))
  }

  /** Appends the draft when it has a non-empty title and at least one fragment. */
  function FlushExperience(st: ExperienceScan): seq<Experience> {
    if Filled(st.cur.title) && |st.desc| > 0 then st.exps + [Close(st.cur, st.desc)] else st.exps
  }

  /** What the experience loop looks at in one line, computed once. */
  datatype ExperienceLine = ExperienceLine(text: String, bullet: bool, upper: bool, clean: String, date: Option<String>)

  /** Each line with its bullet test, capital test, cleaned text and date match. */
  function ClassifyExperience(lines: seq<String>, dateSearch: String -> Option<String>): (ls: seq<ExperienceLine>)
    ensures |ls| == |lines|
    ensures forall i :: 0 <= i < |lines| ==>
      ls[i] == ExperienceLine(lines[i], IsBulletLine(lines[i]), StartsUpper(lines[i]), CleanBullet(lines[i]), dateSearch(lines[i]))
  {
    seq(|lines|, i requires 0 <= i < |lines| =>
      ExperienceLine(lines[i], IsBulletLine(lines[i]), StartsUpper(lines[i]), CleanBullet(lines[i]), dateSearch(lines[i])))
  }

  /**
   * One pass of the experience loop at line `i`: a date line closes the
   * pending entry, records its duration and takes the next non-bullet line
   * as title (or company); a non-bullet line followed by a date line, or met
   * while a duration has no title yet, becomes the title; a bullet line, or
   * a line not starting with a capital while fragments are pending, adds a
   * fragment once there is a title; anything else is skipped.
   */
  function ExperienceStep(ls: seq<ExperienceLine>, i: nat, st: ExperienceScan): (r: (nat, ExperienceScan))
    requires i < |ls|
    ensures i < r.0 <= |ls|
  {
    var line := ls[i];
    if line.date.Some? then
      var st1 := if Filled(st.cur.title) && |st.desc| > 0
                 then ExperienceScan(FlushExperience(st), NoExperience, [])
                 else st;
      var cur := st1.cur.(duration := line.date);
      if i + 1 < |ls| && !ls[i + 1].bullet then
        var cur' := if !Filled(cur.title) then cur.(title := Some(ls[i + 1].text))
                    else if !Filled(cur.company) then cur.(company := Some(ls[i + 1].text))
                    else cur;
        (i + 2, st1.(cur := cur'))
      else (i + 1, st1.(cur := cur))
    else if && !line.bullet && i + 1 < |ls|
            && (ls[i + 1].date.Some? || (Filled(st.cur.duration) && !Filled(st.cur.title))) then
      (i + 1, st.(cur := st.cur.(title := Some(line.text))))
    else if (line.bullet || (|st.desc| > 0 && !line.upper)) && Filled(st.cur.title) then
      (i + 1, st.(desc := st.desc + [line.clean]))
    else (i + 1, st)
  }

  /** The experience loop from line `i` on, followed by the final flush. */
  function ExperienceLoop(ls: seq<ExperienceLine>, i: nat, st: ExperienceScan): seq<Experience>
    requires i <= |ls|
    decreases |ls| - i
  {
    if i == |ls| then FlushExperience(st)
    else
      var next := ExperienceStep(ls, i, st);
      ExperienceLoop(ls, next.0, next.1)
  }

  /** `x` is the bullet-stripped text of some line. */
  predicate IsFragment(x: String, ls: seq<ExperienceLine>) {
    exists j :: 0 <= j < |ls| && x == ls[j].clean
  }

  /** `s` is the text of some line. */
  predicate IsLineOf(s: String, ls: seq<ExperienceLine>) {
    exists j :: 0 <= j < |ls| && s == ls[j].text
  }

  /** `d` is the date text found on some line. */
  predicate IsDateOf(d: String, ls: seq<ExperienceLine>) {
    exists j :: 0 <= j < |ls| && ls[j].date == Some(d)
  }

  /** `s` joins one to twenty fragments of the section with single spaces. */
  ghost predicate DescribedBy(s: String, ls: seq<ExperienceLine>) {
    exists f :: && 1 <= |f| <= MaxDescriptionLines && s == Join(f, " ")
                && forall x :: x in f ==> IsFragment(x, ls)
  }

  /**
   * What every entry satisfies: a non-empty title taken verbatim from a
   * line, a company (if any) taken verbatim from a line, the date text of a
   * line as duration, and a description of one to twenty fragments.
   */
  ghost predicate ExperienceFrom(e: Experience, ls: seq<ExperienceLine>) {
    && e.title != [] && IsLineOf(e.title, ls)
    && (e.company.Some? ==> IsLineOf(e.company.value, ls))
    && e.duration.Some? && IsDateOf(e.duration.value, ls)
    && DescribedBy(e.description, ls)
  }

  /** The draft's fields all come from the section. */
  predicate DraftFrom(cur: ExperienceDraft, ls: seq<ExperienceLine>) {
    && (cur.title.Some? ==> IsLineOf(cur.title.value, ls))
    && (cur.company.Some? ==> IsLineOf(cur.company.value, ls))
    && (cur.duration.Some? ==> IsDateOf(cur.duration.value, ls))
  }

  /**
   * The loop invariant. Besides provenance: a titled draft without a
   * duration sits just before a date line (its title was chosen because the
   * next line has a date), so fragments only ever join a draft with a
   * duration; and every entry used up at least two lines.
   */
  ghost predicate ExperienceInv(ls: seq<ExperienceLine>, i: nat, st: ExperienceScan) {
    && i <= |ls|
    && (forall e :: e in st.exps ==> ExperienceFrom(e, ls))
    && DraftFrom(st.cur, ls)
    && (forall x :: x in st.desc ==> IsFragment(x, ls))
    && (Filled(st.cur.title) && st.cur.duration.None? ==> i < |ls| && ls[i].date.Some?)
    && (|st.desc| > 0 ==> st.cur.duration.Some?)
    && 2 * |st.exps| <= i
    && (Filled(st.cur.title) ==> 2 * |st.exps| + 1 <= i)
    && (|st.desc| > 0 ==> 2 * |st.exps| + 2 <= i)
  }

  /** A draft with a title, a duration and fragments closes into a well-formed entry. */
  lemma CloseFrom(ls: seq<ExperienceLine>, cur: ExperienceDraft, desc: seq<String>)
    requires Filled(cur.title) && cur.duration.Some? && |desc| > 0
    requires DraftFrom(cur, ls)
    requires forall x :: x in desc ==> IsFragment(x, ls)
    ensures ExperienceFrom(Close(cur, desc), ls)
  {
    var f := desc[..Min(|desc|, MaxDescriptionLines)];
    assert forall x :: x in f ==> x in desc;
    assert 1 <= |f| <= MaxDescriptionLines && Describe(desc) == Join(f, " ");
  }

  /** Flushing a state that satisfies the invariant yields only well-formed entries. */
  lemma FlushFrom(ls: seq<ExperienceLine>, i: nat, st: ExperienceScan)
    requires ExperienceInv(ls, i, st)
    ensures forall e :: e in FlushExperience(st) ==> ExperienceFrom(e, ls)
    ensures 2 * |FlushExperience(st)| <= i + 2 * (if |st.desc| > 0 && Filled(st.cur.title) then 1 else 0)
  {
    if Filled(st.cur.title) && |st.desc| > 0 {
      CloseFrom(ls, st.cur, st.desc);
    }
  }

  /** The date branch keeps the invariant. */
  lemma DateStepKeeps(ls: seq<ExperienceLine>, i: nat, st: ExperienceScan)
    requires i < |ls| && ExperienceInv(ls, i, st)
    requires ls[i].date.Some?
    ensures var r := ExperienceStep(ls, i, st); ExperienceInv(ls, r.0, r.1)
  {
    FlushFrom(ls, i, st);
    assert IsDateOf(ls[i].date.value, ls);
    if i + 1 < |ls| {
      assert IsLineOf(ls[i + 1].text, ls);
    }
  }

  /** The title branch keeps the invariant. */
  lemma TitleStepKeeps(ls: seq<ExperienceLine>, i: nat, st: ExperienceScan)
    requires i < |ls| && ExperienceInv(ls, i, st)
    requires ls[i].date.None? && !ls[i].bullet && i + 1 < |ls|
    requires ls[i + 1].date.Some? || (Filled(st.cur.duration) && !Filled(st.cur.title))
    ensures var r := ExperienceStep(ls, i, st); ExperienceInv(ls, r.0, r.1)
  {
    assert IsLineOf(ls[i].text, ls);
  }

  /** The fragment and skip branches keep the invariant. */
  lemma FragmentStepKeeps(ls: seq<ExperienceLine>, i: nat, st: ExperienceScan)
    requires i < |ls| && ExperienceInv(ls, i, st)
    requires ls[i].date.None?
    requires !(!ls[i].bullet && i + 1 < |ls| && (ls[i + 1].date.Some? || (Filled(st.cur.duration) && !Filled(st.cur.title))))
    ensures var r := ExperienceStep(ls, i, st); ExperienceInv(ls, r.0, r.1)
  {
    assert IsFragment(ls[i].clean, ls);
  }

  /** The loop's result from an invariant state consists of well-formed entries, at most one per two lines. */
  lemma {:induction false} ExperienceLoopFrom(ls: seq<ExperienceLine>, i: nat, st: ExperienceScan)
    requires ExperienceInv(ls, i, st)
    ensures forall e :: e in ExperienceLoop(ls, i, st) ==> ExperienceFrom(e, ls)
    ensures 2 * |ExperienceLoop(ls, i, st)| <= |ls|
    decreases |ls| - i
  {
    if i == |ls| {
      FlushFrom(ls, i, st);
    } else {
      var line := ls[i];
      if line.date.Some? {
        DateStepKeeps(ls, i, st);
      } else if !line.bullet && i + 1 < |ls| && (ls[i + 1].date.Some? || (Filled(st.cur.duration) && !Filled(st.cur.title))) {
        TitleStepKeeps(ls, i, st);
      } else {
        FragmentStepKeeps(ls, i, st);
      }
      var next := ExperienceStep(ls, i, st);
      ExperienceLoopFrom(ls, next.0, next.1);
    }
  }

  /**
   * What every entry satisfies, stated on the section's own lines: a
   * non-empty title and a company copied verbatim from lines, the date text
   * of a line as duration, and a description joining one to twenty
   * bullet-stripped lines with single spaces.
   */
  ghost predicate ExperienceOfLines(e: Experience, lines: seq<String>, dateSearch: String -> Option<String>) {
    && e.title != [] && e.title in lines
    && (e.company.Some? ==> e.company.value in lines)
    && e.duration.Some? && (exists j :: 0 <= j < |lines| && dateSearch(lines[j]) == e.duration)
    && exists f :: && 1 <= |f| <= MaxDescriptionLines && e.description == Join(f, " ")
                   && forall x :: x in f ==> exists j :: 0 <= j < |lines| && x == CleanBullet(lines[j])
  }

  /** Title, company and duration carry over from the classified lines to the lines themselves. */
  lemma FieldsOfLines(lines: seq<String>, dateSearch: String -> Option<String>, ls: seq<ExperienceLine>, e: Experience)
    requires |ls| == |lines|
    requires forall i :: 0 <= i < |ls| ==> ls[i].text == lines[i] && ls[i].date == dateSearch(lines[i])
    requires e.title != [] && IsLineOf(e.title, ls)
    requires e.company.Some? ==> IsLineOf(e.company.value, ls)
    requires e.duration.Some? && IsDateOf(e.duration.value, ls)
    ensures e.title in lines
    ensures e.company.Some? ==> e.company.value in lines
    ensures exists j :: 0 <= j < |lines| && dateSearch(lines[j]) == e.duration
  {
    var t :| 0 <= t < |ls| && e.title == ls[t].text;
    assert e.title == lines[t];
    if e.company.Some? {
      var c :| 0 <= c < |ls| && e.company.value == ls[c].text;
      assert e.company.value == lines[c];
    }
    var d :| 0 <= d < |ls| && ls[d].date == Some(e.duration.value);
    assert dateSearch(lines[d]) == e.duration;
  }

  /** The description carries over from the classified lines to the lines themselves. */
  lemma DescriptionOfLines(lines: seq<String>, ls: seq<ExperienceLine>, s: String)
    requires |ls| == |lines|
    requires forall i :: 0 <= i < |ls| ==> ls[i].clean == CleanBullet(lines[i])
    requires DescribedBy(s, ls)
    ensures exists f :: && 1 <= |f| <= MaxDescriptionLines && s == Join(f, " ")
                        && forall x :: x in f ==> exists j :: 0 <= j < |lines| && x == CleanBullet(lines[j])
  {
    var f :| && 1 <= |f| <= MaxDescriptionLines && s == Join(f, " ")
             && forall x :: x in f ==> IsFragment(x, ls);
    forall x | x in f ensures exists j :: 0 <= j < |lines| && x == CleanBullet(lines[j]) {
      var j :| 0 <= j < |ls| && x == ls[j].clean;
      assert x == ls[j].clean;
    }
  }

  lemma EntriesOfLines(lines: seq<String>, dateSearch: String -> Option<String>, ls: seq<ExperienceLine>, r: seq<Experience>)
    requires |ls| == |lines|
    requires forall i :: 0 <= i < |ls| ==>
      ls[i].text == lines[i] && ls[i].date == dateSearch(lines[i]) && ls[i].clean == CleanBullet(lines[i])
    requires forall e :: e in r ==> ExperienceFrom(e, ls)
    ensures forall e :: e in r ==> ExperienceOfLines(e, lines, dateSearch)
  {
    forall e | e in r ensures ExperienceOfLines(e, lines, dateSearch) {
      FieldsOfLines(lines, dateSearch, ls, e);
      DescriptionOfLines(lines, ls, e.description);
    }
  }

  /**
   * `parse_experience`: every entry has a non-empty title and a company
   * copied from section lines, the date text of a section line as duration,
   * and a description joining one to twenty bullet-stripped section lines;
   * each entry uses up at least two lines.
   */
  function ParseExperience(lines: seq<String>, dateSearch: String -> Option<String>): (r: seq<Experience>)
    ensures forall e :: e in r ==> ExperienceOfLines(e, lines, dateSearch)
    ensures 2 * |r| <= |lines|
  {
    var ls := ClassifyExperience(lines, dateSearch);
    var st := ExperienceScan([], NoExperience, []);
    ExperienceStart(ls);
    ExperienceLoopFrom(ls, 0, st);
    ClassifiedExperienceFields(lines, dateSearch);
    EntriesOfLines(lines, dateSearch, ls, ExperienceLoop(ls, 0, st));
    ExperienceLoop(ls, 0, st)
  }

  /** The loop starts with nothing read, which satisfies the invariant. */
  lemma ExperienceStart(ls: seq<ExperienceLine>)
    ensures ExperienceInv(ls, 0, ExperienceScan([], NoExperience, []))
  {
  }

  /** The classified fields the provenance statements rely on. */
  lemma ClassifiedExperienceFields(lines: seq<String>, dateSearch: String -> Option<String>)
    ensures var ls := ClassifyExperience(lines, dateSearch);
      && |ls| == |lines|
      && forall i :: 0 <= i < |ls| ==>
           ls[i].text == lines[i] && ls[i].date == dateSearch(lines[i]) && ls[i].clean == CleanBullet(lines[i])
  {
  }

  // ---------------------------------------------------------------------
  // Education
  // ---------------------------------------------------------------------

  /** Words that make a line a degree line, matched in lower case. */
  const DegreeWords: seq<String> := ["bachelor", "master", "diploma", "b.tech", "mtech"]

  predicate MentionsDegree(line: String) {
    MentionsAny(Lower(line), DegreeWords)
  }

  /**
   * The detail loop's stop test: the lower-cased line, unstripped and of any
   * length, contains a header phrase. Unlike the header test it has no word
   * limit.
   */
  predicate MentionsHeader(line: String) {
    MentionsAny(Lower(line), SectionHeaders)
  }

  /** `\b\d{4}\b` matches at `p`: four digits with no word character on either side. */
  predicate YearAt(line: String, p: nat) {
    && p + 4 <= |line|
    && (p == 0 || !IsWordChar(line[p - 1]))
    && AllDigits(line[p..p + 4])
    && (p + 4 == |line| || !IsWordChar(line[p + 4]))
  }

  /** The leftmost match position at or after `p`. */
  function FindYearFrom(line: String, p: nat): (r: Option<nat>)
    ensures r.Some? ==> p <= r.value && YearAt(line, r.value)
    ensures r.Some? ==> forall q :: p <= q < r.value ==> !YearAt(line, q)
    ensures r.None? ==> forall q :: p <= q ==> !YearAt(line, q)
    decreases |line| - p
  {
    if p + 4 > |line| then None
    else if YearAt(line, p) then Some(p)
    else FindYearFrom(line, p + 1)
  }

  /** `re.search(r'\b\d{4}\b', line)`: the leftmost standalone four-digit number. */
  function FindYear(line: String): (r: Option<String>)
    ensures r.Some? <==> exists p: nat :: YearAt(line, p)
    ensures r.Some? ==> |r.value| == 4 && AllDigits(r.value)
    ensures r.Some? ==> exists p: nat :: YearAt(line, p) && r.value == line[p..p + 4] && forall q: nat :: q < p ==> !YearAt(line, q)
  {
    match FindYearFrom(line, 0)
    case None => None
    case Some(p) => Some(line[p..p + 4])
  }

  /** Where `\b\d{4}` matches: four digits not preceded by a word character. */
  predicate YearStartAt(line: String, p: nat) {
    && p + 4 <= |line|
    && (p == 0 || !IsWordChar(line[p - 1]))
    && AllDigits(line[p..p + 4])
  }

  /**
   * The end of the match of `\b\d{4}[-–]?\s*(?:\d{4}|Present)?` that
   * starts at `p`. Every part after the first four digits is optional, so
   * the greedy first attempt is the match.
   */
  function YearRangeEnd(line: String, p: nat): (q: nat)
    requires YearStartAt(line, p)
    ensures p + 4 <= q <= |line|
  {
    var a := p + 4;
    var b := if a < |line| && line[a] in {'-', '\U{2013}'} then a + 1 else a;
    var c := b + (|line| - b - |TrimLeft(line[b..])|);
    if c + 4 <= |line| && AllDigits(line[c..c + 4]) then c + 4
    else if c + 7 <= |line| && line[c..c + 7] == "Present" then c + 7
    else c
  }

  /** `re.sub` from position `p`: matches are judged on the original text and dropped, other characters copied. */
  function RemoveYearRangesFrom(line: String, p: nat): (r: String)
    requires p <= |line|
    ensures |r| <= |line| - p
    decreases |line| - p
  {
    if p == |line| then []
    else if YearStartAt(line, p) then RemoveYearRangesFrom(line, YearRangeEnd(line, p))
    else [line[p]] + RemoveYearRangesFrom(line, p + 1)
  }

  /** `re.sub(r'\b\d{4}[-–]?\s*(?:\d{4}|Present)?', '', line)`. */
  function RemoveYearRanges(line: String): (r: String)
    ensures |r| <= |line|
    ensures (forall q: nat :: !YearStartAt(line, q)) ==> r == line
  {
    NoYearStartKeeps(line, 0);
    assert line[0..] == line;
    RemoveYearRangesFrom(line, 0)
  }

  /** Without a year start from `p` on, the substitution copies the text. */
  lemma {:induction false} NoYearStartKeeps(line: String, p: nat)
    requires p <= |line|
    ensures (forall q: nat :: p <= q ==> !YearStartAt(line, q)) ==> RemoveYearRangesFrom(line, p) == line[p..]
    decreases |line| - p
  {
    if p < |line| && forall q: nat :: p <= q ==> !YearStartAt(line, q) {
      NoYearStartKeeps(line, p + 1);
      assert line[p..] == [line[p]] + line[p + 1..];
    }
  }

  /** No year start at any position from `p` up to, not including, `q`. */
  predicate NoYearStartBetween(line: String, p: nat, q: nat)
    decreases q - p
  {
    p < q ==> !YearStartAt(line, p) && NoYearStartBetween(line, p + 1, q)
  }

  /**
   * The text before the first year start is kept as it is, the range that
   * starts there is dropped, and the substitution goes on after it.
   */
  lemma {:induction false} FirstYearRangeRemoved(line: String, p: nat, q: nat)
    requires p <= q && YearStartAt(line, q)
    requires NoYearStartBetween(line, p, q)
    ensures RemoveYearRangesFrom(line, p) == line[p..q] + RemoveYearRangesFrom(line, YearRangeEnd(line, q))
    decreases q - p
  {
    if p < q {
      FirstYearRangeRemoved(line, p + 1, q);
      CopiedBeforeRange(line, p, q);
    } else {
      DroppedStep(line, q);
      assert line[p..q] == [];
    }
  }

  /** A character before the first year start is copied in front of what the substitution makes of the rest. */
  lemma CopiedBeforeRange(line: String, p: nat, q: nat)
    requires p < q && YearStartAt(line, q) && !YearStartAt(line, p)
    requires RemoveYearRangesFrom(line, p + 1) == line[p + 1..q] + RemoveYearRangesFrom(line, YearRangeEnd(line, q))
    ensures RemoveYearRangesFrom(line, p) == line[p..q] + RemoveYearRangesFrom(line, YearRangeEnd(line, q))
  {
    CopiedStep(line, p);
    SliceCons(line, p, q);
    ConsJoin(line[p], line[p + 1..q], RemoveYearRangesFrom(line, p + 1),
      RemoveYearRangesFrom(line, YearRangeEnd(line, q)), line[p..q], RemoveYearRangesFrom(line, p));
  }

  lemma SliceCons(line: String, p: nat, q: nat)
    requires p < q <= |line|
    ensures line[p..q] == [line[p]] + line[p + 1..q]
  {
  }

  /** Prepending one character on both sides of `r1 == s + rest`. */
  lemma ConsJoin(c: char, s: String, r1: String, rest: String, whole: String, r0: String)
    requires whole == [c] + s && r1 == s + rest && r0 == [c] + r1
    ensures r0 == whole + rest
  {
    assert [c] + (s + rest) == ([c] + s) + rest;
  }

  lemma CopiedStep(line: String, p: nat)
    requires p < |line| && !YearStartAt(line, p)
    ensures RemoveYearRangesFrom(line, p) == [line[p]] + RemoveYearRangesFrom(line, p + 1)
  {
  }

  lemma DroppedStep(line: String, q: nat)
    requires YearStartAt(line, q)
    ensures RemoveYearRangesFrom(line, q) == RemoveYearRangesFrom(line, YearRangeEnd(line, q))
  {
  }

  /** A year start at or after `p` removes at least its four digits. */
  lemma {:induction false} YearStartShortens(line: String, p: nat, q: nat)
    requires p <= q && YearStartAt(line, q)
    ensures |RemoveYearRangesFrom(line, p)| <= |line| - p - 4
    decreases |line| - p
  {
    if !YearStartAt(line, p) {
      YearStartShortens(line, p + 1, q);
    }
  }

  /** One education entry; `startYear` and `institution` are keys the entry may lack. */
  datatype Education = Education(degree: String, startYear: Option<String>, institution: Option<String>)

  /** The fields gathered so far for the entry being read (`current_edu`). */
  datatype EducationDraft = EducationDraft(degree: Option<String>, startYear: Option<String>, institution: Option<String>)

  const NoEducation: EducationDraft := EducationDraft(None, None, None)

  /** The append test: a degree and a start year or an institution, all truthy. */
  predicate Complete(d: EducationDraft) {
    Filled(d.degree) && (Filled(d.startYear) || Filled(d.institution))
  }

  function Entry(d: EducationDraft): Education
    requires d.degree.Some?
  {
    Education(d.degree.value, d.startYear, d.institution)
  }

  /** What the education loop looks at in one line, computed once. */
  datatype EducationLine = EducationLine(
    text: String,
    degree: bool,
    header: bool,
    year: Option<String>,
    rest: String,
    stripped: String,
    plain: bool)

  /**
   * Each line with its degree and header tests, its year, its stripped text
   * with year ranges removed, its stripped text, and whether it is neither a
   * bare number nor a bullet line.
   */
  function ClassifyEducation(lines: seq<String>): (ls: seq<EducationLine>)
    ensures |ls| == |lines|
    ensures forall i :: 0 <= i < |lines| ==>
      ls[i] == EducationLine(lines[i], MentionsDegree(lines[i]), MentionsHeader(lines[i]), FindYear(lines[i]),
                             Strip(RemoveYearRanges(lines[i])), Strip(lines[i]), !IsNumeral(lines[i]) && !IsBulletLine(lines[i]))
  {
    seq(|lines|, i requires 0 <= i < |lines| =>
      EducationLine(lines[i], MentionsDegree(lines[i]), MentionsHeader(lines[i]), FindYear(lines[i]),
                    Strip(RemoveYearRanges(lines[i])), Strip(lines[i]), !IsNumeral(lines[i]) && !IsBulletLine(lines[i])))
  }

  /**
   * One detail line after a degree: a year sets the start year and, if the
   * draft has no institution yet, the rest of the line becomes it; a line
   * without a year that is not blank, not a bare number and not a bullet
   * becomes the institution when there is none.
   */
  function EducationDetail(cur: EducationDraft, l: EducationLine): EducationDraft {
    if l.year.Some? then
      var cur1 := cur.(startYear := l.year);
      if l.rest != [] && !Filled(cur1.institution) then cur1.(institution := Some(l.rest)) else cur1
    else if !Filled(cur.institution) && l.stripped != [] && l.plain then cur.(institution := Some(l.stripped))
    else cur
  }

  /** The detail loop: read lines from `i` until one mentions a header phrase. */
  function EducationBlock(ls: seq<EducationLine>, i: nat, cur: EducationDraft): (r: (nat, EducationDraft))
    requires i <= |ls|
    ensures i <= r.0 <= |ls|
    ensures r.0 == |ls| || ls[r.0].header
    ensures forall k :: i <= k < r.0 ==> !ls[k].header
    decreases |ls| - i
  {
    if i < |ls| && !ls[i].header then EducationBlock(ls, i + 1, EducationDetail(cur, ls[i])) else (i, cur)
  }

  datatype EducationScan = EducationScan(edu: seq<Education>, cur: EducationDraft)

  function FlushEducation(st: EducationScan): seq<Education> {
    if Complete(st.cur) then st.edu + [Entry(st.cur)] else st.edu
  }

  /**
   * The education loop from line `i` on: a degree line closes a complete
   * draft, becomes the new draft's degree and is followed by its detail
   * lines; other lines are skipped. The last draft is flushed at the end.
   */
  function EducationLoop(ls: seq<EducationLine>, i: nat, st: EducationScan): seq<Education>
    requires i <= |ls|
    decreases |ls| - i
  {
    if i == |ls| then FlushEducation(st)
    else if ls[i].degree then
      var st1 := if Complete(st.cur) then EducationScan(FlushEducation(st), NoEducation) else st;
      var block := EducationBlock(ls, i + 1, st1.cur.(degree := Some(ls[i].text)));
      EducationLoop(ls, block.0, st1.(cur := block.1))
    else EducationLoop(ls, i + 1, st)
  }

  /** A four-digit number. */
  predicate IsYearText(y: String) {
    |y| == 4 && AllDigits(y)
  }

  /** The draft's fields come from the section: a degree line, a year, a non-empty stripped piece of a line. */
  predicate EducationDraftFrom(d: EducationDraft, ls: seq<EducationLine>) {
    && (d.degree.Some? ==> exists j :: 0 <= j < |ls| && ls[j].degree && d.degree.value == ls[j].text)
    && (d.startYear.Some? ==> IsYearText(d.startYear.value))
    && (d.institution.Some? ==>
          && d.institution.value != []
          && exists j :: 0 <= j < |ls| && (d.institution.value == ls[j].rest || d.institution.value == ls[j].stripped))
  }

  /**
   * What every entry satisfies: its degree is a line mentioning a degree
   * word, it has a truthy start year or institution, a start year is four
   * digits, and an institution is a non-empty, stripped piece of a line.
   */
  predicate EducationFrom(e: Education, ls: seq<EducationLine>) {
    && (exists j :: 0 <= j < |ls| && ls[j].degree && e.degree == ls[j].text)
    && (Filled(e.startYear) || Filled(e.institution))
    && EducationDraftFrom(EducationDraft(Some(e.degree), e.startYear, e.institution), ls)
  }

  /** Lines of the section that carry a year always carry a four-digit one. */
  predicate YearsAreYears(ls: seq<EducationLine>) {
    forall j :: 0 <= j < |ls| && ls[j].year.Some? ==> IsYearText(ls[j].year.value)
  }

  /** The detail lines keep the draft's provenance. */
  lemma {:induction false} EducationBlockFrom(ls: seq<EducationLine>, i: nat, cur: EducationDraft)
    requires i <= |ls| && YearsAreYears(ls) && EducationDraftFrom(cur, ls)
    ensures EducationDraftFrom(EducationBlock(ls, i, cur).1, ls)
    ensures EducationBlock(ls, i, cur).1.degree == cur.degree
    decreases |ls| - i
  {
    if i < |ls| && !ls[i].header {
      EducationBlockFrom(ls, i + 1, EducationDetail(cur, ls[i]));
    }
  }

  lemma {:induction false} EducationLoopFrom(ls: seq<EducationLine>, i: nat, st: EducationScan)
    requires i <= |ls| && YearsAreYears(ls)
    requires forall e :: e in st.edu ==> EducationFrom(e, ls)
    requires EducationDraftFrom(st.cur, ls)
    ensures forall e :: e in EducationLoop(ls, i, st) ==> EducationFrom(e, ls)
    decreases |ls| - i
  {
    if i < |ls| {
      if ls[i].degree {
        var st1 := if Complete(st.cur) then EducationScan(FlushEducation(st), NoEducation) else st;
        var cur := st1.cur.(degree := Some(ls[i].text));
        EducationBlockFrom(ls, i + 1, cur);
        var block := EducationBlock(ls, i + 1, cur);
        EducationLoopFrom(ls, block.0, st1.(cur := block.1));
      } else {
        EducationLoopFrom(ls, i + 1, st);
      }
    }
  }

  /**
   * What every entry satisfies, stated on the section's own lines: its
   * degree is a line mentioning a degree word, it has a truthy start year or
   * institution, a start year is four digits, and an institution is
   * non-empty and carries no surrounding whitespace.
   */
  predicate EducationOfLines(e: Education, lines: seq<String>) {
    && e.degree in lines && MentionsDegree(e.degree)
    && (Filled(e.startYear) || Filled(e.institution))
    && (e.startYear.Some? ==> IsYearText(e.startYear.value))
    && (e.institution.Some? ==> e.institution.value != [] && Strip(e.institution.value) == e.institution.value)
  }

  /** The classified lines' facts carry over to the lines themselves. */
  lemma EducationEntryOfLines(lines: seq<String>, ls: seq<EducationLine>, e: Education)
    requires |ls| == |lines|
    requires forall i :: 0 <= i < |ls| ==>
      && ls[i].text == lines[i] && ls[i].degree == MentionsDegree(lines[i])
      && ls[i].rest == Strip(RemoveYearRanges(lines[i])) && ls[i].stripped == Strip(lines[i])
    requires EducationFrom(e, ls)
    ensures EducationOfLines(e, lines)
  {
    var j :| 0 <= j < |ls| && ls[j].degree && e.degree == ls[j].text;
    assert e.degree == lines[j];
    if e.institution.Some? {
      var k :| 0 <= k < |ls| && (e.institution.value == ls[k].rest || e.institution.value == ls[k].stripped);
      if e.institution.value == ls[k].rest {
        StripIdempotent(RemoveYearRanges(lines[k]));
      } else {
        StripIdempotent(lines[k]);
      }
    }
  }

  lemma EducationEntriesOfLines(lines: seq<String>, ls: seq<EducationLine>, r: seq<Education>)
    requires |ls| == |lines|
    requires forall i :: 0 <= i < |ls| ==>
      && ls[i].text == lines[i] && ls[i].degree == MentionsDegree(lines[i])
      && ls[i].rest == Strip(RemoveYearRanges(lines[i])) && ls[i].stripped == Strip(lines[i])
    requires forall e :: e in r ==> EducationFrom(e, ls)
    ensures forall e :: e in r ==> EducationOfLines(e, lines)
  {
    forall e | e in r ensures EducationOfLines(e, lines) {
      EducationEntryOfLines(lines, ls, e);
    }
  }

  /** `parse_education`: every entry satisfies `EducationOfLines`. */
  function ParseEducation(lines: seq<String>): (r: seq<Education>)
    ensures forall e :: e in r ==> EducationOfLines(e, lines)
  {
    var ls := ClassifyEducation(lines);
    EducationLoopFrom(ls, 0, EducationScan([], NoEducation));
    EducationEntriesOfLines(lines, ls, EducationLoop(ls, 0, EducationScan([], NoEducation)));
    EducationLoop(ls, 0, EducationScan([], NoEducation))
  }
}

=== FILE: resume_lists.dfy ===
/**
 * The resume parser's line classifier and the two list builders that look
 * at one line at a time: skills and certifications.
 *
 * `dateSearch` stands for `re.search(date_pattern, line)`: the matched
 * text, or `None` when the line holds no date range.
 */
module ResumeLists {
  import opened Wrappers
  import opened Text
  import opened ResumeSections

  /** The characters a bullet line may start with. */
  const BulletMarkers: set<char> := {'\U{2022}', '-', '*', '\U{25E6}', '\U{B7}', '\U{27A2}', '\U{2713}'}

  /** The markers the bullet-stripping substitution removes: the first four bullet markers only. */
  const StrippedMarkers: set<char> := {'\U{2022}', '-', '*', '\U{25E6}'}

  /** `re.match(r'^\d+\b', line)`: the run of leading digits ends at a word boundary. */
  predicate StartsWithNumber(line: String) {
    var k := LeadingDigits(line);
    k >= 1 && (k == |line| || !IsWordChar(line[k]))
  }

  /** What the pattern asks, with backtracking: some non-empty digit prefix ends at a word boundary. */
  predicate NumberPrefixAt(line: String, k: int) {
    1 <= k <= |line| && AllDigits(line[..k]) && (k == |line| || !IsWordChar(line[k]))
  }

  /** Only the longest digit run can end at a boundary, so the greedy reading is the regex's. */
  lemma StartsWithNumberIff(line: String)
    ensures StartsWithNumber(line) <==> exists k :: NumberPrefixAt(line, k)
  {
    var d := LeadingDigits(line);
    if StartsWithNumber(line) {
      assert NumberPrefixAt(line, d);
    }
    forall k | NumberPrefixAt(line, k) ensures k == d {
    }
  }

  /**
   * `is_bullet_line`: the line starts with a bullet marker, or it is
   * non-empty, does not start with an upper-case letter and does not start
   * with a number.
   */
  predicate IsBulletLine(line: String) {
    || (|line| > 0 && line[0] in BulletMarkers)
    || (|line| > 0 && !IsAsciiUpper(line[0]) && !StartsWithNumber(line))
  }

  /** Empty lines, capitalised lines and numbered lines are never bullets; every other non-empty line is one. */
  lemma BulletLineCases(line: String)
    ensures |line| == 0 ==> !IsBulletLine(line)
    ensures |line| > 0 && IsAsciiUpper(line[0]) ==> !IsBulletLine(line)
    ensures |line| > 0 && IsDigit(line[0]) ==>
      (IsBulletLine(line) <==> !(exists k :: NumberPrefixAt(line, k)))
    ensures |line| > 0 && !IsAsciiUpper(line[0]) && !IsDigit(line[0]) ==> IsBulletLine(line)
  {
    StartsWithNumberIff(line);
  }

  /** `re.sub(r'^[•\-\*◦]\s*', '', line).strip()`: drop one leading marker of the first four, then surrounding space. */
  function CleanBullet(line: String): (r: String)
    ensures Strip(r) == r
    ensures |r| <= |line|
  {
    var rest := if |line| > 0 && line[0] in StrippedMarkers then line[1..] else line;
    StripIdempotent(rest);
    Strip(rest)
  }

  /** A line that is already stripped and does not start with a removable marker is its own clean form. */
  lemma CleanBulletPlain(line: String)
    requires Strip(line) == line
    requires |line| == 0 || line[0] !in StrippedMarkers
    ensures CleanBullet(line) == line
  {
  }

  /** Each field of a skills line is split on these characters. */
  const SkillSeparators: set<char> := {',', ':', ';'}

  const MinSkillLength: nat := 2

  /** Words that disqualify a field from being a skill, matched in lower case. */
  const ExcludedSkillWords: seq<String> := ["experience", "education", "intern"]

  /** The filter a stripped field passes to become a skill. */
  predicate AcceptSkill(part: String) {
    && |part| >= MinSkillLength
    && !IsNumeral(part)
    && !MentionsAny(Lower(part), ExcludedSkillWords)
  }

  /** A field's contribution: its stripped form, when that passes the skill filter. */
  function AcceptedField(field: String): Option<String> {
    var part := Strip(field);
    if AcceptSkill(part) then Some(part) else None
  }

  /** The stripped fields that pass the skill filter, in order. */
  function AcceptedFields(fields: seq<String>): (r: seq<String>)
    ensures forall x :: x in r ==> AcceptSkill(x) && exists j :: 0 <= j < |fields| && x == Strip(fields[j])
    ensures forall j :: 0 <= j < |fields| && AcceptSkill(Strip(fields[j])) ==> Strip(fields[j]) in r
  {
    FilterMapMembers(fields, AcceptedField);
    FilterMap(fields, AcceptedField)
  }

  /** A character of `s` that is also a separator yields at least one occurrence. */
  lemma {:induction false} OccurrencesPositive(s: String, seps: set<char>, c: char)
    requires c in s && c in seps
    ensures Occurrences(s, seps) >= 1
    decreases |s|
  {
    if s[0] != c {
      assert c in s[1..] by {
        var i :| 0 <= i < |s| && s[i] == c;
        assert s[1..][i - 1] == c;
      }
      OccurrencesPositive(s[1..], seps, c);
    }
  }

  /**
   * The skills one line contributes. A cleaned line with a colon yields the
   * fields of the text between its first and second colon; a bullet line
   * without a date range yields the fields of the whole cleaned line;
   * anything else yields nothing.
   */
  function SkillsOfLine(line: String, dateSearch: String -> Option<String>): (r: seq<String>)
    ensures forall x :: x in r ==> AcceptSkill(x)
  {
    var clean := CleanBullet(line);
    if ':' in clean then
      OccurrencesPositive(clean, {':'}, ':');
      var fields := SplitOn(clean, {':'});
      AcceptedFields(SplitOn(Strip(fields[1]), SkillSeparators))
    else if IsBulletLine(line) && dateSearch(line).None? then
      AcceptedFields(SplitOn(clean, SkillSeparators))
    else []
  }

  /** The skills extracted from the section's lines, in line order, repeats included. */
  function ExtractedSkills(lines: seq<String>, dateSearch: String -> Option<String>): (r: seq<String>)
    ensures forall x :: x in r ==> AcceptSkill(x)
  {
    var r := FlatMap(lines, line => SkillsOfLine(line, dateSearch));
    FlatMapMembers(lines, line => SkillsOfLine(line, dateSearch));
    r
  }

  /** Extraction works line by line, so it distributes over a split of the section. */
  lemma ExtractedSkillsAppend(a: seq<String>, b: seq<String>, dateSearch: String -> Option<String>)
    ensures ExtractedSkills(a + b, dateSearch) == ExtractedSkills(a, dateSearch) + ExtractedSkills(b, dateSearch)
  {
    FlatMapAppend(a, b, line => SkillsOfLine(line, dateSearch));
  }

  /** `sorted(set(xs))`: the distinct elements of `xs` in increasing order. */
  function SortedSet(xs: seq<String>): (r: seq<String>)
    ensures StrictlySorted(r)
    ensures forall y :: y in r <==> y in xs
    decreases |xs|
  {
    if |xs| == 0 then []
    else
      var init := xs[..|xs| - 1];
      assert xs == init + [xs[|xs| - 1]];
      InsertSorted(SortedSet(init), xs[|xs| - 1])
  }

  /**
   * `parse_skills`: the key skills together with every skill extracted from
   * the section's lines, sorted and without repeats.
   */
  function ParseSkills(keySkills: seq<String>, lines: seq<String>, dateSearch: String -> Option<String>): (r: seq<String>)
    ensures StrictlySorted(r)
    ensures forall y :: y in r <==> y in keySkills || y in ExtractedSkills(lines, dateSearch)
    ensures forall y :: y in r && y !in keySkills ==> AcceptSkill(y)
  {
    SortedSet(keySkills + ExtractedSkills(lines, dateSearch))
  }

  /** The result is the only strictly sorted list holding exactly the key and extracted skills. */
  lemma ParseSkillsUnique(keySkills: seq<String>, lines: seq<String>, dateSearch: String -> Option<String>, r: seq<String>)
    requires StrictlySorted(r)
    requires forall y :: y in r <==> y in keySkills || y in ExtractedSkills(lines, dateSearch)
    ensures r == ParseSkills(keySkills, lines, dateSearch)
  {
    StrictlySortedUnique(r, ParseSkills(keySkills, lines, dateSearch));
  }

  /** Neither the order of the key skills nor the order of the section's parts changes the result. */
  lemma ParseSkillsOrderFree(keys: seq<String>, keys': seq<String>, a: seq<String>, b: seq<String>, dateSearch: String -> Option<String>)
    requires forall y :: y in keys <==> y in keys'
    ensures ParseSkills(keys, a + b, dateSearch) == ParseSkills(keys', b + a, dateSearch)
  {
    ExtractedSkillsAppend(a, b, dateSearch);
    ExtractedSkillsAppend(b, a, dateSearch);
    ParseSkillsUnique(keys', b + a, dateSearch, ParseSkills(keys, a + b, dateSearch));
  }

  /** A certification title is longer than this. */
  const MinCertificationLength: nat := 5

  /** Words that mark a line as contact details rather than a certification, matched in lower case. */
  const ContactWords: seq<String> := ["email", "phone", "@"]

  datatype Certification = Certification(title: String)

  /** The line test of `parse_certifications`. */
  predicate IsCertificationLine(line: String) {
    var clean := CleanBullet(line);
    IsBulletLine(line) && |clean| > MinCertificationLength && !MentionsAny(Lower(clean), ContactWords)
  }

  /** The entry one line contributes to `parse_certifications`. */
  function CertificationOf(line: String): (r: Option<Certification>)
    ensures r.Some? <==> IsCertificationLine(line)
    ensures r.Some? ==> && r.value.title == CleanBullet(line)
                        && |r.value.title| > MinCertificationLength
                        && !MentionsAny(Lower(r.value.title), ContactWords)
  {
    if IsCertificationLine(line) then Some(Certification(CleanBullet(line))) else None
  }

  /** `parse_certifications`: one entry per qualifying line, titled by the cleaned line, in line order. */
  function ParseCertifications(lines: seq<String>): (r: seq<Certification>)
    ensures |r| <= |lines|
    ensures forall c :: c in r <==> exists i :: 0 <= i < |lines| && CertificationOf(lines[i]) == Some(c)
  {
    FilterMapMembers(lines, CertificationOf);
    FilterMap(lines, CertificationOf)
  }

  /** Every title is a cleaned qualifying line, longer than five characters and free of contact words. */
  lemma CertificationsSound(lines: seq<String>, c: Certification)
    requires c in ParseCertifications(lines)
    ensures |c.title| > MinCertificationLength && !MentionsAny(Lower(c.title), ContactWords)
    ensures exists i :: 0 <= i < |lines| && IsCertificationLine(lines[i]) && c.title == CleanBullet(lines[i])
  {
    var i :| 0 <= i < |lines| && CertificationOf(lines[i]) == Some(c);
  }

  /** One line yields its certification exactly when it qualifies. */
  lemma ParseCertificationsSingle(line: String)
    ensures ParseCertifications([line]) == if IsCertificationLine(line) then [Certification(CleanBullet(line))] else []
  {
    assert [line][1..] == [];
  }

  /** Lines are judged one at a time and kept in order: the result distributes over concatenation. */
  lemma ParseCertificationsAppend(a: seq<String>, b: seq<String>)
    ensures ParseCertifications(a + b) == ParseCertifications(a) + ParseCertifications(b)
  {
    FilterMapAppend(a, b, CertificationOf);
  }

  /** Every qualifying line is kept. */
  lemma ParseCertificationsComplete(lines: seq<String>, i: nat)
    requires i < |lines| && IsCertificationLine(lines[i])
    ensures Certification(CleanBullet(lines[i])) in ParseCertifications(lines)
  {
    assert CertificationOf(lines[i]) == Some(Certification(CleanBullet(lines[i])));
  }

  /** `f` applied to each line, the results concatenated in line order. */
  function FlatMap<T>(lines: seq<String>, f: String -> seq<T>): seq<T>
    decreases |lines|
  {
    if |lines| == 0 then [] else f(lines[0]) + FlatMap(lines[1..], f)
  }

  lemma {:induction false} FlatMapMembers<T>(lines: seq<String>, f: String -> seq<T>)
    ensures forall x :: x in FlatMap(lines, f) <==> exists i :: 0 <= i < |lines| && x in f(lines[i])
    decreases |lines|
  {
    if |lines| > 0 {
      FlatMapMembers(lines[1..], f);
      assert forall i :: 1 <= i < |lines| ==> lines[i] == lines[1..][i - 1];
    }
  }

  lemma {:induction false} FlatMapAppend<T>(a: seq<String>, b: seq<String>, f: String -> seq<T>)
    ensures FlatMap(a + b, f) == FlatMap(a, f) + FlatMap(b, f)
    decreases |a|
  {
    if |a| == 0 {
      assert a + b == b;
    } else {
      assert (a + b)[1..] == a[1..] + b;
      FlatMapAppend(a[1..], b, f);
    }
  }

  /** The present results of `f` on each line, in line order. */
  function FilterMap<T>(lines: seq<String>, f: String -> Option<T>): (r: seq<T>)
    ensures |r| <= |lines|
    decreases |lines|
  {
    if |lines| == 0 then []
    else Present(f(lines[0])) + FilterMap(lines[1..], f)
  }

  function Present<T>(o: Option<T>): (r: seq<T>)
    ensures |r| <= 1
  {
    if o.Some? then [o.value] else []
  }

  lemma {:induction false} FilterMapMembers<T>(lines: seq<String>, f: String -> Option<T>)
    ensures forall x :: x in FilterMap(lines, f) <==> exists i :: 0 <= i < |lines| && f(lines[i]) == Some(x)
    decreases |lines|
  {
    if |lines| > 0 {
      FilterMapMembers(lines[1..], f);
      assert forall i :: 1 <= i < |lines| ==> lines[i] == lines[1..][i - 1];
    }
  }

  lemma {:induction false} FilterMapAppend<T>(a: seq<String>, b: seq<String>, f: String -> Option<T>)
    ensures FilterMap(a + b, f) == FilterMap(a, f) + FilterMap(b, f)
    decreases |a|
  {
    if |a| == 0 {
      assert a + b == b;
    } else {
      assert (a + b)[1..] == a[1..] + b;
      FilterMapAppend(a[1..], b, f);
    }
  }
}

=== FILE: resume_parse.dfy ===
/**
 * The deterministic part of `ResumeParser.parse`: split the text into
 * lines, find the sections, read the lines of the four named groups, build
 * the four lists, and report the section keys found.
 */
module ResumeParse {
  import opened Wrappers
  import opened Text
  import opened ResumeSections
  import opened ResumeLists
  import opened ResumeEntries

  /** The section names each list is read from. */
  const SkillsNames: seq<String> := ["skills", "technical skills", "core competencies"]
  const ExperienceNames: seq<String> := ["experience", "professional experience"]
  const EducationNames: seq<String> := ["education"]
  const CertificationNames: seq<String> := ["certifications"]

  /** The error text of the catch-all handler. */
  const InternalError: String := "Internal server error"

  /** The parts of the parse result computed from the text alone. */
  datatype Parsed = Parsed(
    skills: seq<String>,
    experience: seq<Experience>,
    education: seq<Education>,
    certifications: seq<Certification>,
    sectionsDetected: seq<String>)

  /** `list(bounds.keys())`: the section keys in table order. */
  function Keys(b: Bounds): (r: seq<String>)
    ensures |r| == |b|
    ensures forall k :: 0 <= k < |b| ==> r[k] == b[k].key
  {
    seq(|b|, k requires 0 <= k < |b| => b[k].key)
  }

  /** The four groups read with the corrected section reader, each call starting with nothing consumed. */
  function ParseLines(lines: seq<String>, keySkills: seq<String>, dateSearch: String -> Option<String>): (r: Parsed)
    ensures StrictlySorted(r.skills)
    ensures forall y :: y in keySkills ==> y in r.skills
    ensures forall y :: y in r.skills && y !in keySkills ==> AcceptSkill(y)
    ensures r.sectionsDetected == Keys(FindSectionBounds(lines))
  {
    var b := FindSectionBounds(lines);
    Parsed(
      ParseSkills(keySkills, GetSectionLines(lines, b, SkillsNames, []), dateSearch),
      ParseExperience(GetSectionLines(lines, b, ExperienceNames, []), dateSearch),
      ParseEducation(GetSectionLines(lines, b, EducationNames, [])),
      ParseCertifications(GetSectionLines(lines, b, CertificationNames, [])),
      Keys(b))
  }

  /** A document without header lines reports the single section "personal details". */
  lemma NoHeaderDetected(lines: seq<String>)
    requires !HasHeader(lines)
    ensures Keys(FindSectionBounds(lines)) == [DefaultSection]
  {
    NoHeaderDefault(lines);
  }

  /** Otherwise the reported sections are exactly the distinct stripped header lines. */
  lemma HeadersDetected(lines: seq<String>)
    requires HasHeader(lines)
    ensures forall key :: key in Keys(FindSectionBounds(lines)) <==> exists i :: 0 <= i < |lines| && HeaderKey(lines[i]) == Some(key)
  {
    KeysMembers(FindSectionBounds(lines));
    SectionKeys(lines);
  }

  lemma KeysMembers(b: Bounds)
    ensures forall key :: key in Keys(b) <==> HasKey(b, key)
  {
    forall key ensures key in Keys(b) <==> HasKey(b, key) {
      if HasKey(b, key) {
        var k :| 0 <= k < |b| && b[k].key == key;
        assert Keys(b)[k] == key;
      }
    }
  }

  /** `parse` on the text, with the corrected section reader. */
  function ParseText(text: String, keySkills: seq<String>, dateSearch: String -> Option<String>): Parsed {
    ParseLines(SplitOn(text, {'\n'}), keySkills, dateSearch)
  }

  /**
   * As written: reading a group whose first matching section is still open
   * raises, and the catch-all handler answers "Internal server error".
   */
  function ParseLinesAsWritten(lines: seq<String>, keySkills: seq<String>, dateSearch: String -> Option<String>): (r: Result<Parsed, String>)
    ensures r.Failure? ==> r.error == InternalError
  {
    var b := FindSectionBounds(lines);
    match (GetSectionLinesAsWritten(lines, b, SkillsNames, []), GetSectionLinesAsWritten(lines, b, ExperienceNames, []),
           GetSectionLinesAsWritten(lines, b, EducationNames, []), GetSectionLinesAsWritten(lines, b, CertificationNames, []))
    case (Some(s), Some(x), Some(e), Some(c)) =>
      Success(Parsed(ParseSkills(keySkills, s, dateSearch), ParseExperience(x, dateSearch), ParseEducation(e),
                     ParseCertifications(c), Keys(b)))
    case _ => Failure(InternalError)
  }

  /** Some group's first matching section is left open by the section table. */
  predicate OpenGroup(lines: seq<String>) {
    var b := FindSectionBounds(lines);
    || HitsOpenSection(b, SkillsNames) || HitsOpenSection(b, ExperienceNames)
    || HitsOpenSection(b, EducationNames) || HitsOpenSection(b, CertificationNames)
  }

  /** The code as written fails exactly when a group hits an open section, and otherwise agrees with the corrected parse. */
  lemma ParseAsWrittenAgrees(lines: seq<String>, keySkills: seq<String>, dateSearch: String -> Option<String>)
    ensures ParseLinesAsWritten(lines, keySkills, dateSearch)
      == if OpenGroup(lines) then Failure(InternalError) else Success(ParseLines(lines, keySkills, dateSearch))
  {
    var b := FindSectionBounds(lines);
    AsWrittenAgrees(lines, b, SkillsNames, []);
    AsWrittenAgrees(lines, b, ExperienceNames, []);
    AsWrittenAgrees(lines, b, EducationNames, []);
    AsWrittenAgrees(lines, b, CertificationNames, []);
  }

  /** With pairwise different header lines the code as written always succeeds. */
  lemma DistinctHeadersParse(lines: seq<String>, keySkills: seq<String>, dateSearch: String -> Option<String>)
    requires DistinctHeaderLines(lines)
    ensures ParseLinesAsWritten(lines, keySkills, dateSearch) == Success(ParseLines(lines, keySkills, dateSearch))
  {
    var b := FindSectionBounds(lines);
    DistinctHeadersNeverFail(lines, SkillsNames);
    DistinctHeadersNeverFail(lines, ExperienceNames);
    DistinctHeadersNeverFail(lines, EducationNames);
    DistinctHeadersNeverFail(lines, CertificationNames);
  }
}

=== FILE: resume_scenarios.dfy ===
/**
 * Concrete documents run through the section table: a repeated header
 * that leaves an earlier section open, and what extracting it does.
 */
module ResumeScenarios {
  import opened Wrappers
  import opened Text
  import opened ResumeSections
  import opened ResumeParse

  /** Every header phrase has at least six characters. */
  lemma HeaderPhrasesAreLong()
    ensures forall k :: 0 <= k < |SectionHeaders| ==> |SectionHeaders[k]| >= 6
  {
  }

  /** A line shorter than six characters is never a header line. */
  lemma ShortLineNotHeader(line: String)
    requires |line| < 6
    ensures HeaderKey(line) == None
  {
    HeaderPhrasesAreLong();
    var l := Lower(Strip(line));
    forall k | 0 <= k < |SectionHeaders| ensures !Contains(l, SectionHeaders[k]) {
      NotContainsLonger(l, SectionHeaders[k]);
    }
  }

  /** A line holding a single word with no surrounding space strips to itself and counts one word. */
  lemma {:induction false} WordStartsOfWord(w: String)
    requires |w| > 0 && forall i :: 0 <= i < |w| ==> !IsSpace(w[i])
    ensures CountWordStarts(w, true) == 1 && CountWordStarts(w, false) == 0
    decreases |w|
  {
    if |w| > 1 {
      WordStartsOfWord(w[1..]);
    }
  }

  /** A line already stripped, whose lower-cased text is a one-word header phrase, is a header line keyed by itself. */
  lemma WordHeader(line: String, k: nat)
    requires k < |SectionHeaders| && Strip(line) == line && Lower(line) == SectionHeaders[k]
    requires |line| > 0 && forall i :: 0 <= i < |line| ==> !IsSpace(Lower(line)[i])
    ensures HeaderKey(line) == Some(line)
  {
    ContainsSelf(SectionHeaders[k]);
    WordStartsOfWord(Lower(line));
  }

  /** A word without surrounding space strips to itself. */
  lemma WordStripped(w: String)
    requires |w| > 0 && !IsSpace(w[0]) && !IsSpace(w[|w| - 1])
    ensures Strip(w) == w
  {
  }

  /** "Skills" is a header line keyed by itself. */
  lemma SkillsIsHeader(line: String)
    requires line == "Skills"
    ensures HeaderKey(line) == Some(line)
  {
    WordStripped(line);
    assert Lower(line) == SectionHeaders[10];
    WordHeader(line, 10);
  }

  /** "Education" is a header line keyed by itself. */
  lemma EducationIsHeader(line: String)
    requires line == "Education"
    ensures HeaderKey(line) == Some(line)
  {
    WordStripped(line);
    assert Lower(line) == SectionHeaders[8];
    WordHeader(line, 8);
  }

  /** A document whose "Skills" header comes back after an "Education" section. */
  predicate RepeatedSkills(lines: seq<String>) {
    && |lines| == 6
    && lines[0] == "Skills" && lines[1] == "Go" && lines[2] == "Education"
    && lines[3] == "BSc" && lines[4] == "Skills" && lines[5] == "Rust"
  }

  /** A "Skills" line anywhere in a document has itself as header key. */
  lemma SkillsKeyAt(lines: seq<String>, i: nat)
    requires i < |lines| && lines[i] == "Skills"
    ensures HeaderKeysOf(lines)[i] == Some(lines[i])
  {
    SkillsIsHeader(lines[i]);
  }

  /** An "Education" line anywhere in a document has itself as header key. */
  lemma EducationKeyAt(lines: seq<String>, i: nat)
    requires i < |lines| && lines[i] == "Education"
    ensures HeaderKeysOf(lines)[i] == Some(lines[i])
  {
    EducationIsHeader(lines[i]);
  }

  /** A line shorter than six characters anywhere in a document has no header key. */
  lemma ShortKeyAt(lines: seq<String>, i: nat)
    requires i < |lines| && |lines[i]| < 6
    ensures HeaderKeysOf(lines)[i].None?
  {
    ShortLineNotHeader(lines[i]);
  }

  /** The header key of each line of that document. */
  lemma RepeatedSkillsKeys(lines: seq<String>)
    requires RepeatedSkills(lines)
    ensures var hs := HeaderKeysOf(lines);
      && hs[0] == Some(lines[0]) && hs[1].None? && hs[2] == Some(lines[2])
      && hs[3].None? && hs[4] == Some(lines[0]) && hs[5].None?
  {
    SkillsKeyAt(lines, 0);
    ShortKeyAt(lines, 1);
    EducationKeyAt(lines, 2);
    ShortKeyAt(lines, 3);
    SkillsKeyAt(lines, 4);
    ShortKeyAt(lines, 5);
  }

  /** Header keys `k, -, e, -, k, -`: a header, another one, then the first again. */
  predicate RepeatedKeys(hs: seq<Option<String>>, k: String, e: String) {
    && |hs| == 6 && k != e
    && hs[0] == Some(k) && hs[1].None? && hs[2] == Some(e) && hs[3].None? && hs[4] == Some(k) && hs[5].None?
  }

  lemma RepeatedScan2(hs: seq<Option<String>>, k: String, e: String)
    requires RepeatedKeys(hs, k, e)
    ensures Scan(hs, 2) == [Section(k, 1, None)]
  {
    assert Scan(hs, 0) == [];
    assert Scan(hs, 1) == [Section(k, 1, None)];
  }

  lemma RepeatedScan4(hs: seq<Option<String>>, k: String, e: String)
    requires RepeatedKeys(hs, k, e)
    ensures Scan(hs, 4) == [Section(k, 1, Some(2)), Section(e, 3, None)]
  {
    RepeatedScan2(hs, k, e);
    var b := Scan(hs, 2);
    var c := Closed(b, 2, e);
    assert c == [Section(k, 1, Some(2))];
    assert !HasKey(c, e);
    assert Scan(hs, 3) == c + [Section(e, 3, None)];
  }

  lemma RepeatedScan6(hs: seq<Option<String>>, k: String, e: String)
    requires RepeatedKeys(hs, k, e)
    ensures Scan(hs, 6) == [Section(k, 5, None), Section(e, 3, Some(4))]
  {
    RepeatedScan4(hs, k, e);
    var b := Scan(hs, 4);
    var c := Closed(b, 4, k);
    assert c == [Section(k, 1, Some(2)), Section(e, 3, Some(4))];
    assert HasKey(c, k);
    var r := Put(c, Section(k, 5, None));
    assert |r| == 2 && r[0] == Section(k, 5, None) && r[1] == c[1];
    assert Scan(hs, 5) == r;
  }

  /**
   * The second `k` header closes `e` and reopens `k` in its old place, so
   * the final close reaches `e` and `k` is left open.
   */
  lemma RepeatedSections(hs: seq<Option<String>>, k: String, e: String)
    requires RepeatedKeys(hs, k, e)
    ensures Sections(hs) == [Section(k, 5, None), Section(e, 3, Some(6))]
  {
    RepeatedScan6(hs, k, e);
  }

  /** The table of the document with the repeated "Skills" header. */
  lemma RepeatedSkillsBounds(lines: seq<String>)
    requires RepeatedSkills(lines)
    ensures FindSectionBounds(lines) == [Section(lines[0], 5, None), Section(lines[2], 3, Some(6))]
  {
    RepeatedSkillsKeys(lines);
    assert lines[0] != lines[2] by {
      assert |lines[0]| != |lines[2]|;
    }
    RepeatedSections(HeaderKeysOf(lines), lines[0], lines[2]);
  }

  /** Asking that document for "skills" finds the open "Skills" section first. */
  lemma RepeatedSkillsLookup(lines: seq<String>, name: String)
    requires RepeatedSkills(lines) && name == "skills"
    ensures Lookup(FindSectionBounds(lines), name) == Some(Section(lines[0], 5, None))
  {
    RepeatedSkillsBounds(lines);
    var b := FindSectionBounds(lines);
    SameLowered(b[0].key, name);
    ContainsSelf(Lower(name));
  }

  /** "Skills" and "skills" lower-case alike. */
  lemma SameLowered(x: String, y: String)
    requires x == "Skills" && y == "skills"
    ensures Lower(x) == Lower(y)
  {
    assert LowerChar('S') == 's';
    forall i | 0 <= i < |x| ensures Lower(x)[i] == Lower(y)[i] {
    }
  }

  /** The code as written fails on that document when asked for its skills. */
  lemma RepeatedSkillsCrashes(lines: seq<String>, name: String)
    requires RepeatedSkills(lines) && name == "skills"
    ensures GetSectionLinesAsWritten(lines, FindSectionBounds(lines), [name], []) == None
  {
    RepeatedSkillsLookup(lines, name);
  }

  /** The corrected definition reads the open "Skills" section to the end of the document: "Rust". */
  lemma RepeatedSkillsCorrected(lines: seq<String>, name: String)
    requires RepeatedSkills(lines) && name == "skills"
    ensures GetSectionLines(lines, FindSectionBounds(lines), [name], []) == [lines[5]]
  {
    RepeatedSkillsOpenLast(lines, name);
    OpenLastOfSix(lines, name);
  }

  /** In that document "skills" finds a section opened on the last line and left open, and that line is a bare word. */
  lemma RepeatedSkillsOpenLast(lines: seq<String>, name: String)
    requires RepeatedSkills(lines) && name == "skills"
    ensures |lines| == 6 && Strip(lines[5]) == lines[5] != []
    ensures Lookup(FindSectionBounds(lines), name) == Some(Section(lines[0], 5, None))
  {
    RepeatedSkillsLookup(lines, name);
    RepeatedSkillsLastLine(lines);
  }

  /** A six-line document whose looked-up section is open from its last line yields that line alone. */
  lemma OpenLastOfSix(lines: seq<String>, name: String)
    requires |lines| == 6 && Strip(lines[5]) == lines[5] != []
    requires Lookup(FindSectionBounds(lines), name) == Some(Section(lines[0], 5, None))
    ensures GetSectionLines(lines, FindSectionBounds(lines), [name], []) == [lines[5]]
  {
    OpenLastSection(lines, FindSectionBounds(lines), name, 5);
  }

  lemma RepeatedSkillsLastLine(lines: seq<String>)
    requires RepeatedSkills(lines)
    ensures |lines| == 6 && Strip(lines[5]) == lines[5] != []
  {
    WordStripped(lines[5]);
  }

  /** A name whose section opens on the last line, left open, yields that line alone. */
  lemma OpenLastSection(lines: seq<String>, b: Bounds, name: String, i: nat)
    requires i + 1 == |lines| && Strip(lines[i]) == lines[i] != []
    requires Lookup(b, name).Some? && Lookup(b, name).value.start == i && Lookup(b, name).value.end.None?
    ensures GetSectionLines(lines, b, [name], []) == [lines[i]]
  {
    LastLineSlice(lines, i);
    assert [name][1..] == [];
    assert !Marked([], i);
  }

  /** The open section of the last line alone holds that line, stripped, when it is not blank. */
  lemma LastLineSlice(lines: seq<String>, i: nat)
    requires i + 1 == |lines| && Strip(lines[i]) != []
    ensures SliceCleaned(lines, i, None) == [Strip(lines[i])]
  {
    var xs := Stripped(lines)[i..];
    assert xs == [Strip(lines[i])];
    NonBlankSingle(Strip(lines[i]));
  }

  lemma NonBlankSingle(x: String)
    requires x != []
    ensures NonBlank([x]) == [x]
  {
    assert [x][1..] == [];
  }

  /** As written, parsing that document ends in the catch-all error answer. */
  lemma RepeatedSkillsParseFails(lines: seq<String>, keySkills: seq<String>, dateSearch: String -> Option<String>)
    requires RepeatedSkills(lines)
    ensures ParseLinesAsWritten(lines, keySkills, dateSearch) == Failure(InternalError)
  {
    RepeatedSkillsLookup(lines, SkillsNames[0]);
    assert OpensAt(FindSectionBounds(lines), SkillsNames[0]);
    ParseAsWrittenAgrees(lines, keySkills, dateSearch);
  }
}

=== FILE: resume_sections.dfy ===
/**
 * Splitting a resume's lines into header-delimited sections, and pulling
 * the lines of named sections out of them.
 *
 * The section table is a Python `dict` from the stripped header line to a
 * `(start, end)` pair, where `end` may still be `None`. A `dict` remembers
 * insertion order and keeps a key's position when its value is replaced, so
 * it is modelled as a list of sections with distinct keys, updated in place.
 */
module ResumeSections {
  import opened Wrappers
  import opened Text

  /** The header phrases a line is checked against, all in lower case. */
  const SectionHeaders: seq<String> := [
    "summary", "professional summary", "objective", "profile",
    "experience", "professional experience", "work experience", "employment history",
    "education", "academic background",
    "skills", "technical skills", "technical and soft skills", "core competencies",
    "certifications", "licenses", "credentials",
    "projects", "personal projects", "portfolio",
    "achievements", "accomplishments",
    "personal details", "contact information"]

  /** A header line has at most this many whitespace-separated words. */
  const MaxHeaderWords: nat := 5

  /** The one section of a document without any header line. */
  const DefaultSection: String := "personal details"

  /** Some phrase of `phrases` occurs in `s`. */
  predicate MentionsAny(s: String, phrases: seq<String>) {
    exists k :: 0 <= k < |phrases| && Contains(s, phrases[k])
  }

  /** The header test: the stripped, lower-cased line contains a header phrase and has at most five words. */
  predicate IsHeader(line: String) {
    var l := Lower(Strip(line));
    MentionsAny(l, SectionHeaders) && WordCount(l) <= MaxHeaderWords
  }

  /** One entry of the section table: the lines `start .. end` follow header `key`; `end` is absent while the section is open. */
  datatype Section = Section(key: String, start: nat, end: Option<nat>)

  type Bounds = seq<Section>

  predicate DistinctKeys(b: Bounds) {
    forall i, j :: 0 <= i < j < |b| ==> b[i].key != b[j].key
  }

  /** `key in bounds`. */
  predicate HasKey(b: Bounds, key: String) {
    exists i :: 0 <= i < |b| && b[i].key == key
  }

  /** Every section starts inside a document of `n` lines, and a closed section ends between its start and `n`. */
  predicate WithinLines(b: Bounds, n: nat) {
    forall i :: 0 <= i < |b| ==> b[i].start <= n && (b[i].end.Some? ==> b[i].start <= b[i].end.value <= n)
  }

  /** `bounds[s.key] = (s.start, s.end)`: replace the entry with that key where it stands, or append a new one. */
  function Put(b: Bounds, s: Section): (r: Bounds)
    requires DistinctKeys(b)
    ensures DistinctKeys(r)
    ensures !HasKey(b, s.key) ==> r == b + [s]
    ensures HasKey(b, s.key) ==> |r| == |b|
    ensures forall i :: 0 <= i < |r| && r[i].key == s.key ==> r[i] == s
    ensures forall i :: 0 <= i < |r| && r[i].key != s.key ==> i < |b| && r[i] == b[i]
  {
    if HasKey(b, s.key) then
      seq(|b|, i requires 0 <= i < |b| => if b[i].key == s.key then s else b[i])
    else b + [s]
  }

  /** Give the newest section (the last one inserted) the end `i`. */
  function CloseLast(b: Bounds, i: nat): (r: Bounds)
    requires |b| > 0
    ensures |r| == |b|
    ensures forall k :: 0 <= k < |r| - 1 ==> r[k] == b[k]
    ensures r[|r| - 1] == b[|b| - 1].(end := Some(i))
  {
    b[..|b| - 1] + [b[|b| - 1].(end := Some(i))]
  }

  /** What line `line` contributes to the scan: its stripped text when it is a header line. */
  function HeaderKey(line: String): (h: Option<String>)
    ensures h.Some? <==> IsHeader(line)
    ensures h.Some? ==> h.value == Strip(line)
  {
    if IsHeader(line) then Some(Strip(line)) else None
  }

  /** The header key of every line, in order. */
  function HeaderKeysOf(lines: seq<String>): (hs: seq<Option<String>>)
    ensures |hs| == |lines|
    ensures forall i :: 0 <= i < |lines| ==> hs[i] == HeaderKey(lines[i])
  {
    seq(|lines|, i requires 0 <= i < |lines| => HeaderKey(lines[i]))
  }

  /**
   * One iteration of the scan over line `i` with header key `h`: a header
   * closes the newest section at `i`, unless that section has the same key,
   * and then opens (or reopens) its own section at `i + 1`.
   */
  function Step(b: Bounds, i: nat, h: Option<String>): (r: Bounds)
    requires DistinctKeys(b)
    ensures DistinctKeys(r)
    ensures h.None? ==> r == b
  {
    match h
    case None => b
    case Some(key) => Put(Closed(b, i, key), Section(key, i + 1, None))
  }

  /** The table just before the header `key` at line `i` is put: the newest section closed unless it has that key. */
  function Closed(b: Bounds, i: nat, key: String): (r: Bounds)
    requires DistinctKeys(b)
    ensures DistinctKeys(r)
    ensures |r| == |b|
    ensures forall k :: 0 <= k < |b| ==> r[k].key == b[k].key && r[k].start == b[k].start
    ensures forall k :: 0 <= k < |b| - 1 ==> r[k] == b[k]
    ensures |b| > 0 ==> r[|b| - 1].end == (if b[|b| - 1].key != key then Some(i) else b[|b| - 1].end)
  {
    if |b| > 0 && b[|b| - 1].key != key then CloseLast(b, i) else b
  }

  /** Closing a section keeps the table's keys. */
  lemma ClosedKeys(b: Bounds, i: nat, key: String, k: String)
    requires DistinctKeys(b)
    ensures HasKey(Closed(b, i, key), k) <==> HasKey(b, k)
  {
    var r := Closed(b, i, key);
    if HasKey(b, k) {
      var j :| 0 <= j < |b| && b[j].key == k;
      assert r[j].key == k;
    }
    if HasKey(r, k) {
      var j :| 0 <= j < |r| && r[j].key == k;
      assert b[j].key == k;
    }
  }

  /** The section table after the scan has seen the first `n` lines, given their header keys `hs`. */
  function Scan(hs: seq<Option<String>>, n: nat): (b: Bounds)
    requires n <= |hs|
    ensures DistinctKeys(b)
  {
    if n == 0 then [] else Step(Scan(hs, n - 1), n - 1, hs[n - 1])
  }

  /** `key` is the header key of one of the first `n` lines. */
  predicate SeenKey(hs: seq<Option<String>>, n: nat, key: String)
    requires n <= |hs|
  {
    exists i :: 0 <= i < n && hs[i] == Some(key)
  }

  /** One header step adds its key to the table and no other. */
  lemma StepKeys(b: Bounds, i: nat, key: String)
    requires DistinctKeys(b)
    ensures forall k :: HasKey(Step(b, i, Some(key)), k) <==> HasKey(b, k) || k == key
  {
    var c := Closed(b, i, key);
    var r := Step(b, i, Some(key));
    ClosedKeys(b, i, key, key);
    forall k ensures HasKey(r, k) <==> HasKey(b, k) || k == key {
      ClosedKeys(b, i, key, k);
      if HasKey(r, k) && k != key {
        var j :| 0 <= j < |r| && r[j].key == k;
        assert c[j].key == k;
      }
      if HasKey(c, k) && k != key {
        var j :| 0 <= j < |c| && c[j].key == k;
        assert r[j] == c[j];
      }
      if k == key && !HasKey(c, key) {
        assert r[|c|].key == key;
      }
      if k == key && HasKey(c, key) {
        var j :| 0 <= j < |c| && c[j].key == key;
        assert r[j].key == key;
      }
    }
  }

  /** The scan's sections are keyed by exactly the header keys seen so far. */
  lemma {:induction false} ScanKeys(hs: seq<Option<String>>, n: nat)
    requires n <= |hs|
    ensures forall k :: HasKey(Scan(hs, n), k) <==> SeenKey(hs, n, k)
  {
    if n > 0 {
      ScanKeys(hs, n - 1);
      var b := Scan(hs, n - 1);
      forall k ensures SeenKey(hs, n, k) <==> SeenKey(hs, n - 1, k) || hs[n - 1] == Some(k) {
        if SeenKey(hs, n, k) && hs[n - 1] != Some(k) {
          var i :| 0 <= i < n && hs[i] == Some(k);
          assert SeenKey(hs, n - 1, k);
        }
      }
      match hs[n - 1]
      case None =>
      case Some(key) =>
        StepKeys(b, n - 1, key);
    }
  }

  /** One header step keeps every section within the lines seen. */
  lemma StepWithin(b: Bounds, i: nat, key: String)
    requires DistinctKeys(b) && WithinLines(b, i)
    ensures WithinLines(Step(b, i, Some(key)), i + 1)
  {
    var c := Closed(b, i, key);
    var r := Step(b, i, Some(key));
    forall k | 0 <= k < |r|
      ensures r[k].start <= i + 1 && (r[k].end.Some? ==> r[k].start <= r[k].end.value <= i + 1)
    {
      if r[k].key != key {
        assert r[k] == c[k];
        if k < |b| - 1 {
          assert c[k] == b[k];
        }
      }
    }
  }

  /** Every section of the scan lies within the lines seen. */
  lemma {:induction false} ScanWithin(hs: seq<Option<String>>, n: nat)
    requires n <= |hs|
    ensures WithinLines(Scan(hs, n), n)
  {
    if n > 0 {
      ScanWithin(hs, n - 1);
      ScanWithinStep(hs, n);
    }
  }

  /** One more line keeps the scan within the lines seen. */
  lemma ScanWithinStep(hs: seq<Option<String>>, n: nat)
    requires 0 < n <= |hs| && WithinLines(Scan(hs, n - 1), n - 1)
    ensures WithinLines(Scan(hs, n), n)
  {
    if hs[n - 1].Some? {
      StepWithin(Scan(hs, n - 1), n - 1, hs[n - 1].value);
    }
  }

  /** The header facts a section of the scan over `n` lines keeps: it starts right after the last header line with its key. */
  predicate StartsAfterHeader(hs: seq<Option<String>>, n: nat, s: Section)
    requires n <= |hs|
  {
    && 1 <= s.start <= n
    && hs[s.start - 1] == Some(s.key)
    && (forall j :: s.start <= j < n ==> hs[j] != Some(s.key))
  }

  /** Each section of the scan starts right after the last header line seen with its key. */
  lemma {:induction false} ScanStarts(hs: seq<Option<String>>, n: nat)
    requires n <= |hs|
    ensures forall k :: 0 <= k < |Scan(hs, n)| ==> StartsAfterHeader(hs, n, Scan(hs, n)[k])
  {
    if n > 0 {
      ScanStarts(hs, n - 1);
      var b := Scan(hs, n - 1);
      var r := Scan(hs, n);
      match hs[n - 1]
      case None =>
        forall k | 0 <= k < |r| ensures StartsAfterHeader(hs, n, r[k]) {
          assert StartsAfterHeader(hs, n - 1, b[k]);
        }
      case Some(key) =>
        var c := Closed(b, n - 1, key);
        forall k | 0 <= k < |r| ensures StartsAfterHeader(hs, n, r[k]) {
          if r[k].key != key {
            assert r[k] == c[k];
            assert StartsAfterHeader(hs, n - 1, b[k]);
          }
        }
    }
  }

  /** The table a scan over all of `hs` leaves: the newest section closed at the end, or the default section when there was no header. */
  function Sections(hs: seq<Option<String>>): (b: Bounds)
    ensures |b| >= 1 && DistinctKeys(b)
    ensures b[|b| - 1].end == Some(|hs|)
    ensures WithinLines(b, |hs|)
  {
    var s := Scan(hs, |hs|);
    ScanWithin(hs, |hs|);
    if |s| == 0 then [Section(DefaultSection, 0, Some(|hs|))]
    else
      var r := CloseLast(s, |hs|);
      assert DistinctKeys(r) by {
        forall i, j | 0 <= i < j < |r| ensures r[i].key != r[j].key {
          assert r[i].key == s[i].key && r[j].key == s[j].key;
        }
      }
      assert WithinLines(r, |hs|) by {
        forall i | 0 <= i < |r| ensures r[i].start <= |hs| && (r[i].end.Some? ==> r[i].start <= r[i].end.value <= |hs|) {
          assert r[i].start == s[i].start;
        }
      }
      r
  }

  /** Some line is a header line. */
  predicate AnyHeader(hs: seq<Option<String>>) {
    exists i :: 0 <= i < |hs| && hs[i].Some?
  }

  /** Sections are the scan's own, with the newest closed at the end, unless the scan found none. */
  lemma SectionsShape(hs: seq<Option<String>>)
    ensures var s := Scan(hs, |hs|);
      |s| == 0 ==> Sections(hs) == [Section(DefaultSection, 0, Some(|hs|))]
    ensures var s := Scan(hs, |hs|);
      |s| > 0 ==> |Sections(hs)| == |s| && forall k :: 0 <= k < |s| ==> Sections(hs)[k].key == s[k].key && Sections(hs)[k].start == s[k].start
  {
    var s := Scan(hs, |hs|);
    if |s| > 0 {
      var r := CloseLast(s, |hs|);
      assert Sections(hs) == r;
      forall k | 0 <= k < |s| ensures r[k].key == s[k].key && r[k].start == s[k].start {
        if k < |s| - 1 {
          assert r[k] == s[k];
        }
      }
    }
  }

  /** A scan that saw a header line has a section for it. */
  lemma ScanNonEmpty(hs: seq<Option<String>>)
    ensures AnyHeader(hs) <==> |Scan(hs, |hs|)| > 0
  {
    ScanKeys(hs, |hs|);
    ScanStarts(hs, |hs|);
    var s := Scan(hs, |hs|);
    if AnyHeader(hs) {
      var i :| 0 <= i < |hs| && hs[i].Some?;
      assert SeenKey(hs, |hs|, hs[i].value);
    }
    if |s| > 0 {
      assert StartsAfterHeader(hs, |hs|, s[0]);
    }
  }

  /** Without a header the table is the single default section, and only then. */
  lemma SectionsDefault(hs: seq<Option<String>>)
    ensures !AnyHeader(hs) <==> Sections(hs) == [Section(DefaultSection, 0, Some(|hs|))]
  {
    ScanNonEmpty(hs);
    SectionsShape(hs);
    var s := Scan(hs, |hs|);
    if |s| > 0 {
      ScanStarts(hs, |hs|);
      assert StartsAfterHeader(hs, |hs|, s[0]);
      assert Sections(hs)[0].start == s[0].start >= 1;
    }
  }

  /** With a header, the table's keys are exactly the header keys seen. */
  lemma SectionsKeys(hs: seq<Option<String>>)
    requires AnyHeader(hs)
    ensures forall key :: HasKey(Sections(hs), key) <==> SeenKey(hs, |hs|, key)
  {
    ScanNonEmpty(hs);
    SectionsShape(hs);
    ScanKeys(hs, |hs|);
    var s := Scan(hs, |hs|);
    var b := Sections(hs);
    forall key ensures HasKey(b, key) <==> HasKey(s, key) {
      if HasKey(b, key) {
        var j :| 0 <= j < |b| && b[j].key == key;
        assert s[j].key == key;
      }
      if HasKey(s, key) {
        var j :| 0 <= j < |s| && s[j].key == key;
        assert b[j].key == key;
      }
    }
  }

  /** With a header, each section starts right after the last header with its key. */
  lemma SectionsStarts(hs: seq<Option<String>>)
    requires AnyHeader(hs)
    ensures forall k :: 0 <= k < |Sections(hs)| ==> StartsAfterHeader(hs, |hs|, Sections(hs)[k])
  {
    ScanNonEmpty(hs);
    SectionsShape(hs);
    ScanStarts(hs, |hs|);
    var s := Scan(hs, |hs|);
    var b := Sections(hs);
    forall k | 0 <= k < |b| ensures StartsAfterHeader(hs, |hs|, b[k]) {
      assert StartsAfterHeader(hs, |hs|, s[k]);
    }
  }

  /**
   * `find_section_bounds`: scan every line, then close the newest section
   * at the end of the document; without any header line the whole document
   * is one "personal details" section.
   */
  function FindSectionBounds(lines: seq<String>): (b: Bounds)
    ensures |b| >= 1 && DistinctKeys(b)
    ensures b[|b| - 1].end == Some(|lines|)
    ensures WithinLines(b, |lines|)
  {
    Sections(HeaderKeysOf(lines))
  }

  /** Some line of `lines` is a header line. */
  predicate HasHeader(lines: seq<String>) {
    exists i :: 0 <= i < |lines| && IsHeader(lines[i])
  }

  lemma HasHeaderIff(lines: seq<String>)
    ensures HasHeader(lines) <==> AnyHeader(HeaderKeysOf(lines))
  {
    var hs := HeaderKeysOf(lines);
    if HasHeader(lines) {
      var i :| 0 <= i < |lines| && IsHeader(lines[i]);
      assert hs[i].Some?;
    }
    if AnyHeader(hs) {
      var i :| 0 <= i < |hs| && hs[i].Some?;
      assert IsHeader(lines[i]);
    }
  }

  /**
   * A document gets the single section "personal details" spanning every
   * line exactly when it has no header line.
   */
  lemma NoHeaderDefault(lines: seq<String>)
    ensures !HasHeader(lines) <==> FindSectionBounds(lines) == [Section(DefaultSection, 0, Some(|lines|))]
  {
    HasHeaderIff(lines);
    SectionsDefault(HeaderKeysOf(lines));
  }

  /** With a header line, the section keys are exactly the stripped header lines. */
  lemma SectionKeys(lines: seq<String>)
    requires HasHeader(lines)
    ensures var b := FindSectionBounds(lines);
      forall key :: HasKey(b, key) <==> exists i :: 0 <= i < |lines| && HeaderKey(lines[i]) == Some(key)
  {
    var hs := HeaderKeysOf(lines);
    HasHeaderIff(lines);
    SectionsKeys(hs);
    var b := FindSectionBounds(lines);
    forall key ensures HasKey(b, key) <==> exists i :: 0 <= i < |lines| && HeaderKey(lines[i]) == Some(key) {
      if HasKey(b, key) {
        assert SeenKey(hs, |hs|, key);
        var i :| 0 <= i < |hs| && hs[i] == Some(key);
      }
      if exists i :: 0 <= i < |lines| && HeaderKey(lines[i]) == Some(key) {
        var i :| 0 <= i < |lines| && HeaderKey(lines[i]) == Some(key);
        assert SeenKey(hs, |hs|, key);
      }
    }
  }

  /** `s` starts right after a header line with its key, and no later line is a header with that key. */
  predicate StartsAfterHeaderLine(lines: seq<String>, s: Section) {
    && 1 <= s.start <= |lines|
    && HeaderKey(lines[s.start - 1]) == Some(s.key)
    && (forall j :: s.start <= j < |lines| ==> HeaderKey(lines[j]) != Some(s.key))
  }

  lemma StartsAfterHeaderLineOf(lines: seq<String>, s: Section)
    requires StartsAfterHeader(HeaderKeysOf(lines), |lines|, s)
    ensures StartsAfterHeaderLine(lines, s)
  {
  }

  /**
   * With a header line, each section starts right after the last header
   * line carrying its key.
   */
  lemma SectionStarts(lines: seq<String>)
    requires HasHeader(lines)
    ensures var b := FindSectionBounds(lines);
      forall k :: 0 <= k < |b| ==> StartsAfterHeaderLine(lines, b[k])
  {
    var hs := HeaderKeysOf(lines);
    HasHeaderIff(lines);
    SectionsStarts(hs);
    var b := FindSectionBounds(lines);
    forall k | 0 <= k < |b| ensures StartsAfterHeaderLine(lines, b[k]) {
      StartsAfterHeaderLineOf(lines, b[k]);
    }
  }

  /** Header lines whose stripped texts are pairwise different. */
  predicate DistinctHeaderLines(lines: seq<String>) {
    forall i, j :: 0 <= i < j < |lines| && HeaderKey(lines[i]).Some? && HeaderKey(lines[j]).Some? ==>
      HeaderKey(lines[i]) != HeaderKey(lines[j])
  }

  /** Header keys that never repeat. */
  predicate DistinctHeads(hs: seq<Option<String>>) {
    forall i, j :: 0 <= i < j < |hs| && hs[i].Some? && hs[j].Some? ==> hs[i].value != hs[j].value
  }

  /** Each section but the last ends on the header line of the next one. */
  predicate Tiled(b: Bounds) {
    forall k, l :: 0 <= k && l == k + 1 < |b| ==> b[k].end == Some(b[l].start - 1)
  }

  /** A header with a key not seen before closes the newest section on its own line and opens the next one after it. */
  lemma StepTiles(b: Bounds, i: nat, key: String)
    requires DistinctKeys(b) && Tiled(b) && !HasKey(b, key)
    ensures Tiled(Step(b, i, Some(key)))
  {
    var c := Closed(b, i, key);
    ClosedKeys(b, i, key, key);
    var r := c + [Section(key, i + 1, None)];
    forall k, l | 0 <= k && l == k + 1 < |r| ensures r[k].end == Some(r[l].start - 1) {
      if k < |b| - 1 {
        assert r[k] == b[k] && r[l].start == b[l].start;
      } else {
        assert b[k].key != key;
      }
    }
  }

  /** With header keys that never repeat, a header's key is not yet in the table when the scan reaches it. */
  lemma FreshKey(hs: seq<Option<String>>, n: nat)
    requires n < |hs| && DistinctHeads(hs) && hs[n].Some?
    ensures !HasKey(Scan(hs, n), hs[n].value)
  {
    ScanKeys(hs, n);
  }

  /** With header keys that never repeat, the sections of the scan tile the lines seen. */
  lemma {:induction false} ScanTiles(hs: seq<Option<String>>, n: nat)
    requires n <= |hs| && DistinctHeads(hs)
    ensures Tiled(Scan(hs, n))
  {
    if n > 0 {
      ScanTiles(hs, n - 1);
      ScanTilesStep(hs, n);
    }
  }

  /** One more line keeps the scan tiled when header keys never repeat. */
  lemma ScanTilesStep(hs: seq<Option<String>>, n: nat)
    requires 0 < n <= |hs| && DistinctHeads(hs) && Tiled(Scan(hs, n - 1))
    ensures Tiled(Scan(hs, n))
  {
    if hs[n - 1].Some? {
      FreshKey(hs, n - 1);
      StepTiles(Scan(hs, n - 1), n - 1, hs[n - 1].value);
    }
  }

  /** With header keys that never repeat, every section is closed and each ends where the next one's header stands. */
  lemma SectionsTiled(hs: seq<Option<String>>)
    requires DistinctHeads(hs)
    ensures Tiled(Sections(hs))
    ensures forall k :: 0 <= k < |Sections(hs)| ==> Sections(hs)[k].end.Some?
  {
    ScanTiles(hs, |hs|);
    var s := Scan(hs, |hs|);
    if |s| > 0 {
      CloseLastTiled(s, |hs|);
      assert Sections(hs) == CloseLast(s, |hs|);
    }
  }

  /** Closing the newest section of a tiled table keeps it tiled and leaves no section open. */
  lemma CloseLastTiled(s: Bounds, n: nat)
    requires |s| > 0 && Tiled(s)
    ensures Tiled(CloseLast(s, n))
    ensures forall k :: 0 <= k < |s| ==> CloseLast(s, n)[k].end.Some?
  {
    var b := CloseLast(s, n);
    forall k, l | 0 <= k && l == k + 1 < |b| ensures b[k].end == Some(b[l].start - 1) {
      assert b[k] == s[k] && b[l].start == s[l].start;
    }
    forall k | 0 <= k < |b| - 1 ensures b[k].end.Some? {
      assert b[k] == s[k];
      assert s[k].end == Some(s[k + 1].start - 1);
    }
  }

  /**
   * With pairwise different header lines, every section is closed: each
   * one ends on the line of the next header, and the last one at the end
   * of the document.
   */
  lemma DistinctHeadersTiled(lines: seq<String>)
    requires DistinctHeaderLines(lines)
    ensures Tiled(FindSectionBounds(lines))
    ensures forall k :: 0 <= k < |FindSectionBounds(lines)| ==> FindSectionBounds(lines)[k].end.Some?
  {
    var hs := HeaderKeysOf(lines);
    assert DistinctHeads(hs) by {
      forall i, j | 0 <= i < j < |hs| && hs[i].Some? && hs[j].Some? ensures hs[i].value != hs[j].value {
        assert hs[i] == HeaderKey(lines[i]) && hs[j] == HeaderKey(lines[j]);
      }
    }
    SectionsTiled(hs);
  }

  function Clamp(x: nat, n: nat): nat {
    if x < n then x else n
  }

  /** Every line stripped. */
  function Stripped(lines: seq<String>): (r: seq<String>)
    ensures |r| == |lines|
    ensures forall i :: 0 <= i < |lines| ==> r[i] == Strip(lines[i])
  {
    seq(|lines|, i requires 0 <= i < |lines| => Strip(lines[i]))
  }

  /** A stripped line strips to itself. */
  lemma StrippedIsStripped(lines: seq<String>, x: String)
    requires x in Stripped(lines)
    ensures Strip(x) == x
  {
    var i :| 0 <= i < |lines| && Stripped(lines)[i] == x;
    StripIdempotent(lines[i]);
  }

  /** The non-empty entries of `xs`, in order. */
  function NonBlank(xs: seq<String>): (r: seq<String>)
    ensures |r| <= |xs|
    ensures forall x :: x in r <==> x in xs && x != []
  {
    if |xs| == 0 then []
    else (if xs[0] != [] then [xs[0]] else []) + NonBlank(xs[1..])
  }

  /**
   * `[line.strip() for line in lines[start:end] if line.strip()]`: the
   * slice clamped as Python clamps it, an absent end meaning the end of
   * the list.
   */
  function SliceCleaned(lines: seq<String>, start: nat, end: Option<nat>): (r: seq<String>)
    ensures forall x :: x in r ==> x != [] && x in Stripped(lines)
    ensures end.Some? && end.value <= start ==> r == []
    ensures start >= |lines| ==> r == []
  {
    var lo := Clamp(start, |lines|);
    var hi := if end.Some? then Clamp(end.value, |lines|) else |lines|;
    if lo < hi then NonBlank(Stripped(lines)[lo..hi]) else []
  }

  /** Every non-blank line inside the slice is kept, stripped. */
  lemma SliceCleanedKeeps(lines: seq<String>, start: nat, end: Option<nat>, i: nat)
    requires start <= i < |lines| && (end.None? || i < end.value)
    requires Strip(lines[i]) != []
    ensures Strip(lines[i]) in SliceCleaned(lines, start, end)
  {
    var hi := if end.Some? then Clamp(end.value, |lines|) else |lines|;
    var xs := Stripped(lines)[start..hi];
    assert xs[i - start] == Strip(lines[i]);
  }

  /** The first section, in table order, whose key contains `name`, both lower-cased. */
  function Lookup(b: Bounds, name: String): (r: Option<Section>)
    ensures r.Some? ==> r.value in b && Contains(Lower(r.value.key), Lower(name))
    ensures r.None? <==> forall k :: 0 <= k < |b| ==> !Contains(Lower(b[k].key), Lower(name))
    ensures r.Some? ==> exists k :: 0 <= k < |b| && b[k] == r.value && forall j :: 0 <= j < k ==> !Contains(Lower(b[j].key), Lower(name))
  {
    if |b| == 0 then None
    else if Contains(Lower(b[0].key), Lower(name)) then Some(b[0])
    else
      var r := Lookup(b[1..], name);
      if r.Some? then
        var k :| 0 <= k < |b| - 1 && b[1..][k] == r.value && forall j :: 0 <= j < k ==> !Contains(Lower(b[1..][j].key), Lower(name));
        assert b[k + 1] == r.value && forall j :: 0 <= j < k + 1 ==> !Contains(Lower(b[j].key), Lower(name)) by {
          forall j | 0 <= j < k + 1 ensures !Contains(Lower(b[j].key), Lower(name)) {
            if j > 0 {
              assert b[j] == b[1..][j - 1];
            }
          }
        }
        r
      else r
  }

  /** The line indices marked as extracted so far, as half-open spans `lo .. hi`. */
  type Spans = seq<(nat, nat)>

  predicate Marked(seen: Spans, x: nat) {
    exists k :: 0 <= k < |seen| && seen[k].0 <= x < seen[k].1
  }

  /** The span of line indices a section's lines cover: up to its end, or the end of the document while it is open. */
  function Covered(lines: seq<String>, s: Section): (nat, nat) {
    (s.start, if s.end.Some? then s.end.value else |lines|)
  }

  /**
   * `get_section_lines`, with an open section read to the end of the
   * document: for each requested name in turn, the first matching section
   * contributes its stripped non-blank lines unless its start line was
   * already covered by an earlier match; either way its lines then count
   * as covered.
   */
  function GetSectionLines(lines: seq<String>, b: Bounds, names: seq<String>, seen: Spans): (r: seq<String>)
    ensures forall x :: x in r ==> x != [] && x in Stripped(lines)
    decreases |names|
  {
    if |names| == 0 then []
    else match Lookup(b, names[0])
      case None => GetSectionLines(lines, b, names[1..], seen)
      case Some(s) =>
        var taken := if Marked(seen, s.start) then [] else SliceCleaned(lines, s.start, s.end);
        taken + GetSectionLines(lines, b, names[1..], seen + [Covered(lines, s)])
  }

  /**
   * What the first requested name contributes: nothing when no section
   * matches it, nothing when the start line of its match was already
   * covered, and otherwise the cleaned lines of that section; the rest of
   * the names are then read with the match's lines counted as covered.
   */
  lemma FirstNameContributes(lines: seq<String>, b: Bounds, name: String, rest: seq<String>, seen: Spans)
    ensures var r := GetSectionLines(lines, b, [name] + rest, seen);
      && (Lookup(b, name).None? ==> r == GetSectionLines(lines, b, rest, seen))
      && (Lookup(b, name).Some? && Marked(seen, Lookup(b, name).value.start) ==>
            r == GetSectionLines(lines, b, rest, seen + [Covered(lines, Lookup(b, name).value)]))
      && (Lookup(b, name).Some? && !Marked(seen, Lookup(b, name).value.start) ==>
            var s := Lookup(b, name).value;
            r == SliceCleaned(lines, s.start, s.end) + GetSectionLines(lines, b, rest, seen + [Covered(lines, s)]))
  {
    assert ([name] + rest)[0] == name;
    assert ([name] + rest)[1..] == rest;
  }

  /**
   * No double extraction: two requested names, the same or different,
   * that find the same section yield its lines once.
   */
  lemma NoDoubleExtraction(lines: seq<String>, b: Bounds, first: String, second: String, seen: Spans)
    requires Lookup(b, second) == Lookup(b, first)
    ensures GetSectionLines(lines, b, [first, second], seen) == GetSectionLines(lines, b, [first], seen)
  {
    assert [first, second][1..] == [second];
    assert [second][1..] == [];
    assert [first][1..] == [];
    match Lookup(b, first)
    case None =>
    case Some(s) =>
      var seen' := seen + [Covered(lines, s)];
      var again := if Marked(seen', s.start) then [] else SliceCleaned(lines, s.start, s.end);
      if s.start < Covered(lines, s).1 {
        assert seen'[|seen|] == Covered(lines, s);
      }
      assert again == [];
      assert GetSectionLines(lines, b, [second], seen') == [];
  }

  /**
   * `get_section_lines` as written: it marks `range(start, end)` as covered,
   * and `range` refuses an absent end, so a requested section that is still
   * open raises (`None` here) after its lines were read.
   */
  function GetSectionLinesAsWritten(lines: seq<String>, b: Bounds, names: seq<String>, seen: Spans): (r: Option<seq<String>>)
    decreases |names|
  {
    if |names| == 0 then Some([])
    else match Lookup(b, names[0])
      case None => GetSectionLinesAsWritten(lines, b, names[1..], seen)
      case Some(s) =>
        if s.end.None? then None
        else
          var taken := if Marked(seen, s.start) then [] else SliceCleaned(lines, s.start, s.end);
          match GetSectionLinesAsWritten(lines, b, names[1..], seen + [(s.start, s.end.value)])
          case None => None
          case Some(rest) => Some(taken + rest)
  }

  /** Some requested name whose first matching section is still open. */
  predicate HitsOpenSection(b: Bounds, names: seq<String>) {
    exists k :: 0 <= k < |names| && OpensAt(b, names[k])
  }

  /** The first section matching `name` is still open. */
  predicate OpensAt(b: Bounds, name: String) {
    Lookup(b, name).Some? && Lookup(b, name).value.end.None?
  }

  /**
   * The code as written fails exactly when some requested name matches an
   * open section first; otherwise it returns what the corrected definition
   * returns.
   */
  lemma {:induction false} AsWrittenAgrees(lines: seq<String>, b: Bounds, names: seq<String>, seen: Spans)
    ensures GetSectionLinesAsWritten(lines, b, names, seen).None? <==> HitsOpenSection(b, names)
    ensures !HitsOpenSection(b, names) ==>
      GetSectionLinesAsWritten(lines, b, names, seen) == Some(GetSectionLines(lines, b, names, seen))
    decreases |names|
  {
    if |names| > 0 {
      var tail := names[1..];
      assert HitsOpenSection(b, names) <==> OpensAt(b, names[0]) || HitsOpenSection(b, tail) by {
        if HitsOpenSection(b, tail) {
          var k :| 0 <= k < |tail| && OpensAt(b, tail[k]);
          assert names[k + 1] == tail[k];
        }
        if HitsOpenSection(b, names) {
          var k :| 0 <= k < |names| && OpensAt(b, names[k]);
          if k > 0 {
            assert tail[k - 1] == names[k];
          }
        }
      }
      match Lookup(b, names[0])
      case None =>
        AsWrittenAgrees(lines, b, tail, seen);
      case Some(s) =>
        AsWrittenAgrees(lines, b, tail, seen + [Covered(lines, s)]);
    }
  }

  /** With pairwise different header lines the code as written never fails. */
  lemma DistinctHeadersNeverFail(lines: seq<String>, names: seq<String>)
    requires DistinctHeaderLines(lines)
    ensures GetSectionLinesAsWritten(lines, FindSectionBounds(lines), names, [])
      == Some(GetSectionLines(lines, FindSectionBounds(lines), names, []))
  {
    var b := FindSectionBounds(lines);
    DistinctHeadersTiled(lines);
    forall name ensures !OpensAt(b, name) {
      var s := Lookup(b, name);
      if s.Some? {
        var k :| 0 <= k < |b| && b[k] == s.value;
      }
    }
    AsWrittenAgrees(lines, b, names, []);
  }
}

=== FILE: text.dfy ===
/**
 * Python string primitives the resume parser relies on: `str.strip`,
 * `str.lower`, `str.split()`, substring tests, `re.split` on a character
 * class, `" ".join`, and the code-point ordering `sorted` uses.
 *
 * Character classes are those of Python's `str` methods where they are
 * small enough to write out (`isspace`), and the ASCII subset otherwise
 * (`lower`, `isupper`, `\d`, `\w`).
 */
module Text {

  type String = seq<char>

  /** The characters for which Python's `str.isspace()` holds (and which `\s` matches). */
  predicate IsSpace(c: char) {
    || c == ' ' || c == '\t' || c == '\n' || c == '\r' || c == '\U{B}' || c == '\U{C}'
    || ('\U{1C}' <= c <= '\U{1F}') || c == '\U{85}' || c == '\U{A0}' || c == '\U{1680}'
    || ('\U{2000}' <= c <= '\U{200A}') || c == '\U{2028}' || c == '\U{2029}'
    || c == '\U{202F}' || c == '\U{205F}' || c == '\U{3000}'
  }

  predicate IsDigit(c: char) {
    '0' <= c <= '9'
  }

  predicate IsAsciiUpper(c: char) {
    'A' <= c <= 'Z'
  }

  /** Regex word character (`\w`), ASCII subset: letters, digits and underscore. */
  predicate IsWordChar(c: char) {
    IsDigit(c) || IsAsciiUpper(c) || ('a' <= c <= 'z') || c == '_'
  }

  predicate AllDigits(s: String) {
    forall i :: 0 <= i < |s| ==> IsDigit(s[i])
  }

  /** `re.match(r'^\d+$', s)`: one or more digits, optionally followed by one final newline. */
  predicate IsNumeral(s: String) {
    || (|s| >= 1 && AllDigits(s))
    || (|s| >= 2 && s[|s| - 1] == '\n' && AllDigits(s[..|s| - 1]))
  }

  /** Length of the run of digits that starts `s`. */
  function LeadingDigits(s: String): (k: nat)
    ensures k <= |s|
    ensures AllDigits(s[..k])
    ensures k < |s| ==> !IsDigit(s[k])
  {
    if |s| > 0 && IsDigit(s[0]) then 1 + LeadingDigits(s[1..]) else 0
  }

  /** `str.lstrip()`: drops the leading whitespace, nothing else. */
  function TrimLeft(s: String): (r: String)
    ensures |r| <= |s| && r == s[|s| - |r|..]
    ensures forall i :: 0 <= i < |s| - |r| ==> IsSpace(s[i])
    ensures |r| > 0 ==> !IsSpace(r[0])
  {
    if |s| > 0 && IsSpace(s[0]) then TrimLeft(s[1..]) else s
  }

  /** `str.rstrip()`: drops the trailing whitespace, nothing else. */
  function TrimRight(s: String): (r: String)
    ensures |r| <= |s| && r == s[..|r|]
    ensures forall i :: |r| <= i < |s| ==> IsSpace(s[i])
    ensures |r| > 0 ==> !IsSpace(r[|r| - 1])
  {
    if |s| > 0 && IsSpace(s[|s| - 1]) then TrimRight(s[..|s| - 1]) else s
  }

  /** `r` is `s[a..]` cut short, and everything cut away on either side is whitespace. */
  predicate StrippedAt(s: String, r: String, a: int) {
    && 0 <= a <= a + |r| <= |s|
    && r == s[a..a + |r|]
    && (forall i :: 0 <= i < a ==> IsSpace(s[i]))
    && (forall i :: a + |r| <= i < |s| ==> IsSpace(s[i]))
  }

  /** `str.strip()`: the longest slice of `s` that neither starts nor ends with whitespace. */
  function Strip(s: String): (r: String)
    ensures |r| <= |s|
    ensures |r| > 0 ==> !IsSpace(r[0]) && !IsSpace(r[|r| - 1])
  {
    TrimRight(TrimLeft(s))
  }

  /** What `Strip` cuts away: whitespace only, on both sides of a slice it keeps. */
  lemma StripShape(s: String)
    ensures exists a :: StrippedAt(s, Strip(s), a)
  {
    var l := TrimLeft(s);
    var r := TrimRight(l);
    TrimmedBothSides(s, l, r);
    assert Strip(s) == r;
  }

  /** Whitespace cut from the front of `s`, then from the back of what is left, leaves a stripped slice. */
  lemma TrimmedBothSides(s: String, l: String, r: String)
    requires |l| <= |s| && l == s[|s| - |l|..]
    requires forall i :: 0 <= i < |s| - |l| ==> IsSpace(s[i])
    requires |r| <= |l| && r == l[..|r|]
    requires forall i :: |r| <= i < |l| ==> IsSpace(l[i])
    ensures StrippedAt(s, r, |s| - |l|)
  {
    var a := |s| - |l|;
    assert r == s[a..a + |r|];
    forall i | a + |r| <= i < |s|
      ensures IsSpace(s[i])
    {
      assert s[i] == l[i - a];
    }
  }

  /** A line strips to nothing exactly when it is all whitespace (Python's falsy `line.strip()`). */
  lemma StripEmptyIff(s: String)
    ensures Strip(s) == [] <==> forall i :: 0 <= i < |s| ==> IsSpace(s[i])
  {
    var r := Strip(s);
    StripShape(s);
    var a :| StrippedAt(s, r, a);
    if |r| > 0 {
      assert s[a] == r[0];
    }
  }

  /** Stripping twice is stripping once. */
  lemma StripIdempotent(s: String)
    ensures Strip(Strip(s)) == Strip(s)
  {
    var r := Strip(s);
    if |r| > 0 {
      assert TrimLeft(r) == r;
      assert TrimRight(r) == r;
    }
  }

  function LowerChar(c: char): char {
    if IsAsciiUpper(c) then (c as int + 32) as char else c
  }

  /** `str.lower()` on ASCII letters; other characters are kept. */
  function Lower(s: String): (r: String)
    ensures |r| == |s|
  {
    seq(|s|, i requires 0 <= i < |s| => LowerChar(s[i]))
  }

  predicate IsPrefix(p: String, s: String) {
    |p| <= |s| && s[..|p|] == p
  }

  /** Python's `needle in hay` for strings. */
  predicate Contains(hay: String, needle: String)
    decreases |hay|
  {
    IsPrefix(needle, hay) || (|hay| > 0 && Contains(hay[1..], needle))
  }

  lemma {:induction false} ContainsSelf(s: String)
    ensures Contains(s, s)
  {
    assert s[..|s|] == s;
  }

  /** A string never contains a longer one. */
  lemma {:induction false} NotContainsLonger(hay: String, needle: String)
    requires |needle| > |hay|
    ensures !Contains(hay, needle)
    decreases |hay|
  {
    if |hay| > 0 {
      NotContainsLonger(hay[1..], needle);
    }
  }

  /** Number of maximal whitespace-free runs in `s` that start after a space (or at the start when `atBoundary`). */
  function CountWordStarts(s: String, atBoundary: bool): nat
    decreases |s|
  {
    if |s| == 0 then 0
    else (if atBoundary && !IsSpace(s[0]) then 1 else 0) + CountWordStarts(s[1..], IsSpace(s[0]))
  }

  /** `len(s.split())`. */
  function WordCount(s: String): nat {
    CountWordStarts(s, true)
  }

  /** `re.split('[...]', s)` for a character class `seps`: all fields, empty ones included. */
  function SplitOn(s: String, seps: set<char>): (r: seq<String>)
    ensures |r| >= 1
    ensures forall k, c :: 0 <= k < |r| && c in r[k] ==> c !in seps
    ensures Concat(r) == Without(s, seps)
    ensures |r| == 1 + Occurrences(s, seps)
    decreases |s|
  {
    if |s| == 0 then [""]
    else
      var rest := SplitOn(s[1..], seps);
      if s[0] in seps then [""] + rest
      else
        assert ([s[0]] + rest[0]) + Concat(rest[1..]) == [s[0]] + Concat(rest) by {
          ConcatCons(rest);
        }
        [[s[0]] + rest[0]] + rest[1..]
  }

  function Concat(parts: seq<String>): String {
    if |parts| == 0 then [] else parts[0] + Concat(parts[1..])
  }

  lemma ConcatCons(parts: seq<String>)
    requires |parts| >= 1
    ensures Concat(parts) == parts[0] + Concat(parts[1..])
  {
  }

  /** `s` with every character of `seps` removed. */
  function Without(s: String, seps: set<char>): String {
    if |s| == 0 then [] else (if s[0] in seps then [] else [s[0]]) + Without(s[1..], seps)
  }

  function Occurrences(s: String, seps: set<char>): nat {
    if |s| == 0 then 0 else (if s[0] in seps then 1 else 0) + Occurrences(s[1..], seps)
  }

  /** `sep.join(parts)`. */
  function Join(parts: seq<String>, sep: String): String {
    if |parts| == 0 then []
    else if |parts| == 1 then parts[0]
    else parts[0] + sep + Join(parts[1..], sep)
  }

  /** Python's `a < b` on `str`: lexicographic by code point, a proper prefix first. */
  predicate Below(a: String, b: String)
    decreases |a|
  {
    if |a| == 0 then |b| > 0
    else if |b| == 0 then false
    else if a[0] != b[0] then a[0] < b[0]
    else Below(a[1..], b[1..])
  }

  lemma {:induction false} BelowIrreflexive(a: String)
    ensures !Below(a, a)
    decreases |a|
  {
    if |a| > 0 {
      BelowIrreflexive(a[1..]);
    }
  }

  lemma {:induction false} BelowTransitive(a: String, b: String, c: String)
    requires Below(a, b) && Below(b, c)
    ensures Below(a, c)
    decreases |a|
  {
    if |a| > 0 && |b| > 0 && |c| > 0 && a[0] == b[0] && b[0] == c[0] {
      BelowTransitive(a[1..], b[1..], c[1..]);
    }
  }

  /** Distinct strings are always ordered one way or the other. */
  lemma {:induction false} BelowTotal(a: String, b: String)
    requires a != b
    ensures Below(a, b) || Below(b, a)
    decreases |a|
  {
    if |a| > 0 && |b| > 0 && a[0] == b[0] {
      assert a == [a[0]] + a[1..] && b == [b[0]] + b[1..];
      BelowTotal(a[1..], b[1..]);
    }
  }

  /** Strictly increasing, hence free of duplicates: the shape of `sorted(set(...))`. */
  predicate StrictlySorted(s: seq<String>) {
    forall i, j :: 0 <= i < j < |s| ==> Below(s[i], s[j])
  }

  /** Adds `x` to a strictly sorted list at its place, unless it is already there. */
  function InsertSorted(s: seq<String>, x: String): (r: seq<String>)
    requires StrictlySorted(s)
    ensures StrictlySorted(r)
    ensures forall y :: y in r <==> y in s || y == x
  {
    if |s| == 0 then [x]
    else if x == s[0] then s
    else if Below(x, s[0]) then
      assert forall j :: 0 <= j < |s| ==> Below(x, s[j]) by {
        forall j | 0 < j < |s| ensures Below(x, s[j]) {
          BelowTransitive(x, s[0], s[j]);
        }
      }
      [x] + s
    else
      BelowTotal(x, s[0]);
      var tail := InsertSorted(s[1..], x);
      assert forall y :: y in tail ==> Below(s[0], y);
      [s[0]] + tail
  }

  lemma {:induction false} BelowAsymmetric(a: String, b: String)
    ensures !(Below(a, b) && Below(b, a))
    decreases |a|
  {
    if |a| > 0 && |b| > 0 && a[0] == b[0] {
      BelowAsymmetric(a[1..], b[1..]);
    }
  }

  /** Two strictly sorted lists with the same elements are the same list. */
  lemma {:induction false} StrictlySortedUnique(a: seq<String>, b: seq<String>)
    requires StrictlySorted(a) && StrictlySorted(b)
    requires forall y :: y in a <==> y in b
    ensures a == b
    decreases |a|
  {
    if |a| > 0 {
      assert a[0] in a;
    }
    if |b| > 0 {
      assert b[0] in b;
    }
    if |a| > 0 && |b| > 0 {
      // each head is the least element of the common set
      BelowAsymmetric(a[0], b[0]);
      assert a[0] == b[0];
      BelowIrreflexive(a[0]);
      forall y | y in a[1..] ensures y in b[1..] {
        var j :| 1 <= j < |a| && a[j] == y;
        assert y in b;
      }
      forall y | y in b[1..] ensures y in a[1..] {
        var j :| 1 <= j < |b| && b[j] == y;
        assert y in a;
      }
      StrictlySortedUnique(a[1..], b[1..]);
    }
  }
}

=== FILE: wrappers.dfy ===
/** Failure-compatible result types shared by the billing and resume modules. */
module Wrappers {

  /** A value that may be absent (Python's `None`). */
  datatype Option<+T> = None | Some(value: T) {
    function GetOr(default: T): T {
      match this
      case Some(v) => v
      case None => default
    }
  }

  /** Either a value or an error, for endpoints that answer with an error payload. */
  datatype Result<+R, +E> = Success(value: R) | Failure(error: E) {
    predicate IsFailure() {
      Failure?
    }
  }
}
